=== FILE: README.md ===
# GRASS scaffolding tools: sequence reader, breakpoint counter, coverage depth and command lines

This project models in Dafny the core of the GRASS scaffolding tool suite:

- **SequenceReader** (`reader.dfy`) covers the FASTA/FASTQ readers of the Common library (`Reader`, `FastAReader`, `FastQReader`).
  - A file is the sequence of lines `fgets` returns. Each line keeps its newline when it has one.
  - The `FILE*` handle is the line sequence plus a cursor.
  - The model covers `Open`, `Close`, `NumReads` with its cache, the single-record `Read`s and the batch `Read(vector&)`s. That includes the chunked `buf`/`offset` flushing of the sequence body, whose precondition shows that `strcpy` never overruns `buf`.
- **BreakpointCount** (`breakpoint_count.dfy`) covers breakpointCounter's classifier.
  - `IsBreakpoint` classifies a pair as a join, orientation or order breakpoint, first match wins, and updates the counters.
  - `ProcessAlignments` splits the alignment hits into runs of equal query id. `processAlignmentGroup` counts the breakpoints between neighbours inside each run.
- **Coverage** (`coverage.dfy`) covers coverageUtil.
  - `calculateDepth` computes per-base depth from read start positions and the average read length, clamped to the contig.
  - `outputDepth` writes the values in contig order.
  - `outputMIPSformat` writes one summary row per contig.
- **BreakpointConfig**, **KmerConfig** and **ReadDiffConfig** (`*_config.dfy`) cover the three `Configuration::ProcessCommandLine` parsers.
  - Each models the defaults, the scanning loop with its `break`s, and the final file-name checks.
  - `LastError` is modelled as the list of diagnostics written to the `serr` string stream. Messages written to `cerr` never reach it.
- **Text** (`text.dfy`) holds the C-locale `isspace`, `toupper`, `tolower` and `strcasecmp`. **Wrappers** holds `Option`, and **Sequences** (`sequences.dfy`) a slicing fact shared by the two flag parsers.

Behaviour of the source that the model keeps as written:

- The header line of a record loses its last character, whatever it is. The `fgets` lines normally end in `'\n'`, but the last line of a file may not. The code does `line[strlen(line) - 1] = '\0'`, so this model follows the code (`HeaderComment`) rather than "strip the line terminator".
- In `FastQReader::Read`, the line after the `+` line is the quality line; its last character is dropped and trailing white space is trimmed. When `+` is the last line of the file, `fgets` fails and leaves the buffer unchanged, so the `+` line itself becomes the quality line.
- A FASTQ sequence block ends only at a line starting with `+`. A line starting with `@` does not end it.
- `Read(vector&)` sizes the vector with `NumReads()` and ignores the result of each `Read`. A call at the end of the file leaves the previous record's strings, which are stored again. The contract of `ReadAllFastA` states this for a reader already at the end of its file: the batch holds `NumReads()` empty records. The general case, where a batch runs past the last record part-way, is in the body but not in a contract.
- For FASTQ, `NumReads` counts every line starting with `@`, quality lines included, so the batch can hold repeated records.
- A rejected `-minbases`, `-distance-threshold`, `-kmer` or `-verbose` value is reported on `cerr`. The parse fails, but `LastError` holds only what `serr` got, which can be nothing (`BreakpointConfig.BadMinBasesLeavesLastErrorEmpty`).

Parameters stand in for what the model cannot see:

- `fopen`'s outcome: `Option<seq<string>>` for a reader, and `fileOpened` for `outputDepth`.
- `Helpers::ParseInt`: a function `string -> Option<int>`.
- `MaxLine`: the reader's `maxLine` field.

## Model

| member | source | states |
|---|---|---|
| Text.Upper | Common/Reader.cpp:120-121 | each ASCII lower-case letter becomes the upper-case letter whose lower case it is, every other character is kept, no lower-case letter is left, and the length is kept |
| Text.TrimEnd | Common/Reader.cpp:99-102 | the result is the longest prefix not ending in white space: everything removed is white space and the kept part does not end in white space |
| SequenceReader.NewReader | Common/Reader.cpp:36-42 | a new reader has the given format and maximum line length, no file and no cached read count |
| SequenceReader.Open | Common/Reader.cpp:44-52 | opening succeeds exactly when no file is open and `fopen` succeeds; a failure leaves the reader unchanged; success puts the cursor at the start with no cached count |
| SequenceReader.Close | Common/Reader.cpp:54-64 | closing returns true exactly when a file was open, and always leaves the reader closed with the cache reset |
| SequenceReader.OpenCloseRoundTrip | Common/Reader.cpp:44-64 | opening and then closing gives back the closed reader it started from |
| SequenceReader.IsOpen | Common/Reader.cpp:66-69 | true exactly when the reader holds an open file |
| SequenceReader.IsOpenTracksOpenClose | Common/Reader.cpp:44-69 | after `Open` the reader is open exactly when it was already open or `fopen` succeeded, `Open` returns true exactly when it turns a closed reader into an open one, and `Close` returns whether it was open and always leaves it closed |
| SequenceReader.NumReads | Common/Reader.cpp:145-164 | 0 when closed; otherwise the size of the set of line indices starting with the format's marker, stored in the cache, read position unchanged |
| SequenceReader.NumReadsIsCached | Common/Reader.cpp:151-152 | a second call returns the same count and changes nothing |
| SequenceReader.CountMarkedIsMarkedLines | Common/Reader.cpp:154-160 | the counting loop over all lines counts exactly the set of marker lines |
| SequenceReader.FirstMarkedFrom | Common/Reader.cpp:91-97 | the body ends at the first line at or after the start that begins with the marker, or at the end of the file |
| SequenceReader.ScanBodyIsConcatenation | Common/Reader.cpp:90-118 | the chunked `buf`/`offset` flushing yields exactly the trimmed lines concatenated, up to the first stop line, nothing lost or repeated |
| SequenceReader.HeaderComment | Common/Reader.cpp:86-87 | a header of two or more characters is its marker, then the comment, then one last character; a one-character header gives an empty comment |
| SequenceReader.ReadFastA | Common/Reader.cpp:78-124 | end of file exactly when no line is left; an error exactly when the line is not a `>` header; otherwise the comment, the upper-cased trimmed body up to the next `>` line (or the end), and the cursor left on that line |
| SequenceReader.ReadFastAConsumesOneHeader | Common/Reader.cpp:131-143 | from a header with k headers left, a `Read` never fails on the header, hits the end exactly when k is 0, and otherwise moves to the next header with k-1 left |
| SequenceReader.FastARoundTrip | Common/Reader.cpp:78-124 | reading a record laid out as header plus sequence lines gives back the comment and the upper-cased joined sequence and stops at the next record |
| SequenceReader.ReadFastQ | Common/Reader.cpp:172-228 | the same error cases with `@`; the body runs up to the first `+` line (a `@` line does not end it); quality and next cursor are those of `QualityAt` for that `+` line |
| SequenceReader.QualityAt | Common/Reader.cpp:186-201 | no `+` line: empty quality at the end of the file. Otherwise the raw line is the one after the `+` line, or the `+` line itself when it is the last line; the quality is a proper prefix of it that does not end in white space, everything between it and the raw line's last character is white space, and the cursor moves past the raw line |
| SequenceReader.FastQRoundTrip | Common/Reader.cpp:172-228 | reading a header, sequence lines, `+` and a quality line gives back comment, upper-cased sequence and quality, cursor just after the quality line |
| SequenceReader.ReadFastQAsFastA | Common/Reader.cpp:166-170 | the same end-of-file and header-error cases as the three-argument read; a record is that read's record without its quality, and the reader moves exactly as that read moves it |
| SequenceReader.ReadAllFastA | Common/Reader.cpp:131-143 | a successful batch has `NumReads()` records; a closed reader gives none; a file read from a header start loads without error, consumes the whole file, and its i-th record is the comment and upper-cased trimmed body of the i-th header line; a reader already at the end of its file stores `NumReads()` copies of the initial empty record and does not move |
| SequenceReader.ReadAllFastQ | Common/Reader.cpp:254-267 | a successful batch has `NumReads()` records and keeps the count cached; a closed reader gives none |
| SequenceReader.ReadAllFastQAsFastA | Common/Reader.cpp:240-252 | a successful batch has `NumReads()` records |
| BreakpointCount.IsBreakpoint | breakpointCounter/BreakpointCount.cpp:7-26 | different references is a join; otherwise a mismatch of the reverse flags is an orientation breakpoint; otherwise a non-increasing reference position in forward sense is an order breakpoint; each raises `Total` and its own counter; the result is true exactly when one of the three checks holds, and otherwise no counter changes |
| BreakpointCount.ExactlyOneCategory | breakpointCounter/BreakpointCount.cpp:7-26 | a breakpoint raises `Total` by one and exactly one category counter; no breakpoint leaves all counters alone |
| BreakpointCount.OrderExample | breakpointCounter/BreakpointCount.cpp:20-24 | a hit at reference position 100 followed by one at 50, same sense, is an order breakpoint |
| BreakpointCount.ProcessGroup | breakpointCounter/BreakpointCount.cpp:43-59 | a run of n hits gives between 0 and n-1 breakpoints, `Total` rises by the count, and `Total` minus the categories is unchanged |
| BreakpointCount.GroupCountsPairs | breakpointCounter/BreakpointCount.cpp:43-59 | within one run, the count is the number of adjacent pairs that classify as breakpoints |
| BreakpointCount.RunLengthSpec | breakpointCounter/BreakpointCount.cpp:36-37 | the inner loop stops exactly at the first hit whose query differs, or at the end: every hit before it has the run's query |
| BreakpointCount.RunsUniform | breakpointCounter/BreakpointCount.cpp:31-39 | every run is non-empty with a single query, and the first run starts at the first hit |
| BreakpointCount.RunsFlatten | breakpointCounter/BreakpointCount.cpp:31-39 | the runs concatenate back to the input |
| BreakpointCount.RunsMaximal | breakpointCounter/BreakpointCount.cpp:35-37 | neighbouring runs are non-empty and have different queries |
| BreakpointCount.ProcessRuns | breakpointCounter/BreakpointCount.cpp:32-39 | the summed count is the rise of `Total`, and `Total` minus the categories is unchanged |
| BreakpointCount.ProcessAlignments | breakpointCounter/BreakpointCount.cpp:28-41 | the returned count is the rise of `Total`; `Total` minus the categories is unchanged |
| BreakpointCount.ProcessAlignmentsCountsSameQueryPairs | breakpointCounter/BreakpointCount.cpp:28-59 | the count equals the number of adjacent same-query pairs in the whole input that are breakpoints: pairs across queries are never compared |
| Coverage.DepthRow | coverageUtil/coverage.cpp:84-91 | cell k holds the number of reads with `max(start, 0) <= k < start + avgReadLength`, for a zeroed row of the contig's length |
| Coverage.CalculateDepth | coverageUtil/coverage.cpp:75-94 | succeeds exactly when the coverage has as many contigs as were read; failure leaves the depth untouched; success gives every contig its depth row |
| Coverage.DepthBounds | coverageUtil/coverage.cpp:86-91 | every depth cell is between 0 and the number of reads of the contig |
| Coverage.NonPositiveLengthCoversNothing | coverageUtil/coverage.cpp:89-90 | with a non-positive average read length no base is covered |
| Coverage.CoveredCountIsClampedLength | coverageUtil/coverage.cpp:89-90 | one read covers exactly the bases of `[max(start, 0), min(start + avgReadLength, len))` |
| Coverage.DepthSumIsTotalClamped | coverageUtil/coverage.cpp:87-91 | summed over the bases, the depth counts each read once per base it covers |
| Coverage.RowSumIsTotalClamped | coverageUtil/coverage.cpp:84-91 | the sum of a computed depth row is the total clamped length of the contig's reads |
| Coverage.ClampAtContigEnd | coverageUtil/coverage.cpp:89-90 | a read at 8 of average length 5 on a 10-base contig covers only bases 8 and 9 |
| Coverage.Offset | coverageUtil/coverage.cpp:102-108 | a contig's values fit inside the output, before the total length |
| Coverage.OutputDepth | coverageUtil/coverage.cpp:96-111 | fails exactly when the file does not open; otherwise writes one value per base, the depth of base j of contig i at the offset of contig i plus j |
| Coverage.OutputMipsFormat | coverageUtil/coverage.cpp:113-126 | one row per contig, in order, with 1-based index, comment, length and the sum of its depth cells |
| Coverage.SummarySumIsReadTotal | coverageUtil/coverage.cpp:119-121 | after `calculateDepth` the coverage sum of a contig is the total clamped length of its reads |
| BreakpointConfig.ProcessCommandLine | breakpointCounter/Configuration.cpp:49-145 | fewer than two arguments fail with "not enough arguments"; success means both file names are set and `LastError` is untouched |
| BreakpointConfig.ScanStores | breakpointCounter/Configuration.cpp:61-130 | the scan only stores `argv[argc-2]` as reference and `argv[argc-1]` as scaffold name, never stores a negative threshold, and does not touch `Success`/`LastError` |
| BreakpointConfig.SuccessTakesLastTwoTokens | breakpointCounter/Configuration.cpp:119-144 | a successful parse from the defaults has at least two arguments, takes the names from the last two, and has non-negative thresholds |
| BreakpointConfig.ThresholdsStayNonNegative | breakpointCounter/Configuration.cpp:70-107 | non-negative thresholds stay non-negative across any parse |
| BreakpointConfig.HelpFirstFails | breakpointCounter/Configuration.cpp:64-69 | `-help`/`-h` first fails with the help text first in `LastError` and nothing else changed |
| BreakpointConfig.TwoFileNamesSucceed | breakpointCounter/Configuration.cpp:119-122 | `<reference> <scaffolds>` alone succeeds with the default thresholds: at least 90 bases, distance threshold 10000, temporary path left unset |
| BreakpointConfig.DefaultsWithoutFlags | breakpointCounter/Configuration.cpp:39-46 | an accepted command line keeps the constructor's values for every flag it does not give: min-bases 90, distance threshold 10000, temporary path left unset |
| BreakpointConfig.FlagsBeforePositions | breakpointCounter/Configuration.cpp:108-122 | flags are matched before positions: `-tmp x` sets the path and no file name; a flag value may be `-h` |
| BreakpointConfig.BadMinBasesLeavesLastErrorEmpty | breakpointCounter/Configuration.cpp:79-86 | a `-minbases` value that does not parse fails, but its message goes to `cerr`, so `LastError` can be empty |
| BreakpointConfig.SucceedsExactlyWhenAccepted | breakpointCounter/Configuration.cpp:49-145 | from the defaults, the parse succeeds exactly on the program name, then flag/value pairs (`-minbases` and `-distance-threshold` with a value that parses non-negative, `-tmp` with any value), then a reference and a scaffold name that are non-empty and not flag words; so a reached help token, an unknown token, a missing or bad value, or a missing name fails |
| BreakpointConfig.AcceptedResult | breakpointCounter/Configuration.cpp:70-122 | an accepted command line succeeds with `LastError` empty, stores the last two tokens as reference and scaffold names, and stores each flag's value, a later repetition overriding an earlier one |
| KmerConfig.ProcessCommandLine | kmer/Configuration.cpp:48-129 | one argument fails with "not enough arguments"; success means an input name is set and `LastError` is untouched |
| KmerConfig.ScanStores | kmer/Configuration.cpp:60-119 | the scan only stores the last argument as input name and only a positive k-mer length |
| KmerConfig.SuccessTakesLastToken | kmer/Configuration.cpp:110-128 | a successful parse from the defaults takes the input name from the last argument and has a positive k-mer length |
| KmerConfig.KmerStaysPositive | kmer/Configuration.cpp:69-87 | a positive k-mer length stays positive across any parse |
| KmerConfig.KmerFlag | kmer/Configuration.cpp:69-87 | `-kmer v <input>` succeeds exactly when v parses to a positive number, which is stored; otherwise the length is kept |
| KmerConfig.VerboseFlag | kmer/Configuration.cpp:88-109 | `-verbose v <input>` succeeds exactly when v is "yes" or "no" in any case, and sets verbose to whether it was "yes" |
| KmerConfig.VerboseIgnoresCase | kmer/Configuration.cpp:98-101 | "YeS" switches verbose output on |
| KmerConfig.BadValueLeavesLastErrorEmpty | kmer/Configuration.cpp:69-109 | a missing or rejected `-kmer`/`-verbose` value fails the parse, but its message goes to `cerr`, so `LastError` can be empty, and neither the k-mer length nor the verbose switch changes |
| KmerConfig.SucceedsExactlyWhenAccepted | kmer/Configuration.cpp:48-129 | from the defaults, the parse succeeds exactly on the program name, then flag/value pairs (`-kmer` with a value that parses positive, `-verbose` with yes or no in any case), then an input name that is non-empty and not a flag word; so a reached help token, an unknown token, a missing or bad value, or a missing name fails |
| KmerConfig.AcceptedResult | kmer/Configuration.cpp:69-112 | an accepted command line succeeds with `LastError` empty, stores the last token as input name, the k-mer lengths and verbose switches of its flags, a later repetition overriding an earlier one |
| KmerConfig.DefaultsWithoutFlags | kmer/Configuration.cpp:39-45 | an accepted command line keeps the constructor's values for every flag it does not give: k-mer length 36 and verbose output off |
| ReadDiffConfig.ProcessCommandLine | readDiff/Configuration.cpp:48-102 | one argument fails; success means all three names are set and `LastError` untouched; on failure each missing name has its diagnostic |
| ReadDiffConfig.SucceedsExactlyOnThreeNames | readDiff/Configuration.cpp:60-98 | from the defaults, success holds exactly for three non-empty, non-help arguments, which become A, B and C in order |
| ReadDiffConfig.HelpFirstFails | readDiff/Configuration.cpp:63-68 | `-help`/`-h` first fails with the help text first and no name changed |
| ReadDiffConfig.ShortCommandLineKeepsEmptyNames | readDiff/Configuration.cpp:39-45 | the constructor's names are empty: a command line with fewer than three names fails, keeps every name position it does not reach empty and reports the missing first (and second) name |

## Left out

- `Common/Aligner.cpp`, which runs `nucmer`, `delta-filter` and `show-coords`, is not part of this model, and neither is the code that parses their coordinate output into `MummerCoord`: `MummerCoord` values arrive already parsed.
- Real file I/O: `fopen` modes, `fgets`, `fseek`/`ftell` and `fclose` are replaced by a line sequence with a cursor; `outputDepth`'s `fprintf` text and `outputMIPSformat`'s `cout` formatting are replaced by the sequences of values and rows they print.
- Lines of `MaxLine - 1` characters or more, which `fgets` splits into pieces: every file line is required to be shorter than `MaxLine` (`WellFormedFile`). `Globals.h`, which defines `MaxLine`, is not part of this model, so it is the reader's `maxLine` field.
- Multi-byte characters: text is taken as ASCII, one `char` per byte, so `WellFormedFile`'s bound on a line's length counts the bytes `fgets` counts.
- NUL characters inside lines, at which `strlen`/`strcpy`/`strcmp` stop early: strings are taken whole.
- The `runtime_error` for a bad header is the `BadHeader` outcome, and in a batch read `Aborted`; the partly filled vector left behind by the exception is not modelled.
- SequenceReader.ReadAllFastQ: does not state that a well-formed file loads without error nor the records' contents, because `NumReads` also counts quality lines starting with `@`, which are not headers.
- SequenceReader.ReadAllFastQAsFastA: states only the number of records, not that they are the FASTQ records without their quality strings.
- The reader destructor and the `line`/`buf` allocations.
- coverageUtil's `main`, `readContigs`, `readCoverage`, `banner` and the `ReadCoverageReader` file format; `GetContigCount()` is taken to be the number of per-contig read-location lists, and `AverageReadLength` is taken as already converted with `(int)`.
- The floating-point `averageCoverage = coverageSum / contigLength` of `outputMIPSformat`: a row carries the integer sum and the length instead.
- 32-bit `int` overflow of depth cells, breakpoint counters and thresholds, and the 64-bit `coverageSum`: integers are unbounded.
- The `cout` debugging lines of `BreakpointCount` and its unused `references` parameter.
- The text of every diagnostic and of `printHelpMessage`: diagnostics are constructors (`Help` stands for the whole help text), and messages sent to `cerr` are not recorded at all.
- `Helpers::ParseInt` is not part of this model; it is the `parseInt` parameter. `MummerConfig.TmpPath` is the `tmpPath` field, `None` when this parse did not set it.

=== FILE: breakpoint_config.dfy ===
/** The command line of breakpointCounter:
    `breakpointCounter [-minbases n] [-distance-threshold n] [-tmp path] <reference> <scaffolds>`.

    `argv` is the sequence of arguments including the program name at index 0,
    so `argc` is `|argv|`. `Helpers::ParseInt` is not part of this model and is
    passed in as `parseInt`, `None` standing for a failed parse. */
module BreakpointConfig {
  import opened Wrappers
  import Sequences

  /** The messages written to the `serr` stream that becomes `LastError`.
      The messages for bad `-minbases` and `-distance-threshold` values go to
      `cerr` instead, so they never reach `LastError`. */
  datatype Diagnostic =
    | NotEnoughArguments
    | Help
    | MissingArgument(flag: string)
    | UnknownArgument(token: string)
    | NoReferenceFile
    | NoScaffoldFile

  /** The configuration fields. `tmpPath` is `MummerConfig.TmpPath`, whose
      initial value lives in the aligner configuration: `None` means this parse
      did not set it. */
  datatype Configuration = Configuration(
    success: bool,
    scaffoldFileName: string,
    referenceFileName: string,
    minBases: int,
    distanceThreshold: int,
    tmpPath: Option<string>,
    lastError: seq<Diagnostic>)

  /** The constructor `Configuration()`. */
  function Default(): Configuration {
    Configuration(false, "", "", 90, 10000, None, [])
  }

  predicate IsHelp(token: string) {
    token == "-help" || token == "-h"
  }

  /** The state of the scanning loop: the configuration as modified so far,
      whether a `break` ended the loop with failure, and what `serr` holds. */
  datatype Scan = Scan(config: Configuration, broke: bool, serr: seq<Diagnostic>)

  /** The `while (i < argc)` loop from index `i`. */
  function ScanFrom(argv: seq<string>, parseInt: string -> Option<int>, i: nat, c: Configuration, serr: seq<Diagnostic>): Scan
    decreases |argv| - i
  {
    if i >= |argv| then Scan(c, false, serr)
    else
      var token := argv[i];
      if IsHelp(token) then Scan(c, true, serr + [Help])
      else if token == "-minbases" then
        if |argv| - i - 1 < 1 then Scan(c, true, serr + [MissingArgument(token)])
        else match parseInt(argv[i + 1])
          case None => Scan(c, true, serr)
          case Some(v) =>
            if v < 0 then Scan(c, true, serr)
            else ScanFrom(argv, parseInt, i + 2, c.(minBases := v), serr)
      else if token == "-distance-threshold" then
        if |argv| - i - 1 < 1 then Scan(c, true, serr + [MissingArgument(token)])
        else match parseInt(argv[i + 1])
          case None => Scan(c, true, serr)
          case Some(v) =>
            if v < 0 then Scan(c, true, serr)
            else ScanFrom(argv, parseInt, i + 2, c.(distanceThreshold := v), serr)
      else if token == "-tmp" then
        if |argv| - i - 1 < 1 then Scan(c, true, serr + [MissingArgument(token)])
        else ScanFrom(argv, parseInt, i + 2, c.(tmpPath := Some(argv[i + 1])), serr)
      else if i == |argv| - 2 then
        ScanFrom(argv, parseInt, i + 1, c.(referenceFileName := argv[|argv| - 2]), serr)
      else if i == |argv| - 1 then
        ScanFrom(argv, parseInt, i + 1, c.(scaffoldFileName := argv[|argv| - 1]), serr)
      else Scan(c, true, serr + [UnknownArgument(token)])
  }

  /** `ProcessCommandLine(argc, argv)` on configuration `c`. */
  function ProcessCommandLine(c: Configuration, argv: seq<string>, parseInt: string -> Option<int>): (r: Configuration)
    ensures |argv| < 2 ==> r == c.(success := false, lastError := [NotEnoughArguments])
    ensures r.success ==> r.referenceFileName != "" && r.scaffoldFileName != ""
    ensures r.success ==> r.lastError == c.lastError
  {
    if |argv| < 2 then c.(success := false, lastError := [NotEnoughArguments])
    else
      var s := ScanFrom(argv, parseInt, 1, c, []);
      var serr := s.serr
        + (if s.config.referenceFileName == "" then [NoReferenceFile] else [])
        + (if s.config.scaffoldFileName == "" then [NoScaffoldFile] else []);
      var ok := !s.broke && s.config.referenceFileName != "" && s.config.scaffoldFileName != "";
      s.config.(success := ok, lastError := if ok then c.lastError else serr)
  }

  /** The scan only ever stores the token at `argc - 2` as reference name and
      the one at `argc - 1` as scaffold name, and never changes `success` or
      `lastError`; negative thresholds are never stored. */
  lemma {:induction false} ScanStores(argv: seq<string>, parseInt: string -> Option<int>, i: nat, c: Configuration, serr: seq<Diagnostic>)
    requires |argv| >= 2
    ensures var r := ScanFrom(argv, parseInt, i, c, serr).config;
      && (r.referenceFileName == c.referenceFileName || r.referenceFileName == argv[|argv| - 2])
      && (r.scaffoldFileName == c.scaffoldFileName || r.scaffoldFileName == argv[|argv| - 1])
      && r.success == c.success && r.lastError == c.lastError
      && (c.minBases >= 0 ==> r.minBases >= 0)
      && (c.distanceThreshold >= 0 ==> r.distanceThreshold >= 0)
    decreases |argv| - i
  {
    if i < |argv| {
      var token := argv[i];
      if IsHelp(token) {
      } else if token == "-minbases" || token == "-distance-threshold" {
        if |argv| - i - 1 >= 1 && parseInt(argv[i + 1]).Some? && parseInt(argv[i + 1]).value >= 0 {
          var v := parseInt(argv[i + 1]).value;
          if token == "-minbases" {
            ScanStores(argv, parseInt, i + 2, c.(minBases := v), serr);
          } else {
            ScanStores(argv, parseInt, i + 2, c.(distanceThreshold := v), serr);
          }
        }
      } else if token == "-tmp" {
        if |argv| - i - 1 >= 1 {
          ScanStores(argv, parseInt, i + 2, c.(tmpPath := Some(argv[i + 1])), serr);
        }
      } else if i == |argv| - 2 {
        ScanStores(argv, parseInt, i + 1, c.(referenceFileName := argv[|argv| - 2]), serr);
      } else if i == |argv| - 1 {
        ScanStores(argv, parseInt, i + 1, c.(scaffoldFileName := argv[|argv| - 1]), serr);
      }
    }
  }

  /** Starting from the defaults, a successful parse took the reference file
      name from `argv[argc - 2]` and the scaffold file name from `argv[argc - 1]`,
      both non-empty, and left both thresholds non-negative. */
  lemma SuccessTakesLastTwoTokens(argv: seq<string>, parseInt: string -> Option<int>)
    requires ProcessCommandLine(Default(), argv, parseInt).success
    ensures var r := ProcessCommandLine(Default(), argv, parseInt);
      && |argv| >= 3
      && r.referenceFileName == argv[|argv| - 2] != ""
      && r.scaffoldFileName == argv[|argv| - 1] != ""
      && r.minBases >= 0 && r.distanceThreshold >= 0
  {
    ScanStores(argv, parseInt, 1, Default(), []);
  }

  /** The thresholds stay non-negative across any parse. */
  lemma ThresholdsStayNonNegative(c: Configuration, argv: seq<string>, parseInt: string -> Option<int>)
    requires c.minBases >= 0 && c.distanceThreshold >= 0
    ensures ProcessCommandLine(c, argv, parseInt).minBases >= 0
    ensures ProcessCommandLine(c, argv, parseInt).distanceThreshold >= 0
  {
    if |argv| >= 2 {
      ScanStores(argv, parseInt, 1, c, []);
    }
  }

  /** `-help` or `-h` as the first argument fails and stops the scan: only
      `success` and `lastError` change. */
  lemma HelpFirstFails(c: Configuration, argv: seq<string>, parseInt: string -> Option<int>)
    requires |argv| >= 2 && IsHelp(argv[1])
    ensures var r := ProcessCommandLine(c, argv, parseInt);
      && !r.success
      && r == c.(success := false, lastError := r.lastError)
      && r.lastError[0] == Help
  {
  }

  /** A plain `<reference> <scaffolds>` command line succeeds with the
      defaults unchanged. */
  lemma TwoFileNamesSucceed(argv: seq<string>, parseInt: string -> Option<int>)
    requires |argv| == 3 && argv[1] != "" && argv[2] != ""
    requires argv[1] !in {"-help", "-h", "-minbases", "-distance-threshold", "-tmp"}
    requires argv[2] !in {"-help", "-h", "-minbases", "-distance-threshold", "-tmp"}
    ensures ProcessCommandLine(Default(), argv, parseInt)
         == Default().(success := true, referenceFileName := argv[1], scaffoldFileName := argv[2])
    ensures var r := ProcessCommandLine(Default(), argv, parseInt);
      r.minBases == 90 && r.distanceThreshold == 10000 && r.tmpPath == None
  {
    var withReference := Default().(referenceFileName := argv[1]);
    var withBoth := withReference.(scaffoldFileName := argv[2]);
    assert ScanFrom(argv, parseInt, 2, withReference, []) == Scan(withBoth, false, []);
  }

  /** Flag matching comes before the positional checks: `-tmp` in the
      reference position takes the last token as its value, so no file name
      is set; and a flag value may itself look like `-h`. */
  lemma FlagsBeforePositions(parseInt: string -> Option<int>)
    ensures var r := ProcessCommandLine(Default(), ["prog", "-tmp", "x"], parseInt);
      !r.success && r.tmpPath == Some("x") && r.lastError == [NoReferenceFile, NoScaffoldFile]
    ensures var r := ProcessCommandLine(Default(), ["prog", "-tmp", "-h", "ref", "scf"], parseInt);
      r.success && r.tmpPath == Some("-h")
  {
  }

  /** A rejected `-minbases` value is reported on `cerr`, so when both file
      names were already set `LastError` is empty although the parse failed. */
  lemma BadMinBasesLeavesLastErrorEmpty(c: Configuration, argv: seq<string>, parseInt: string -> Option<int>)
    requires c.referenceFileName != "" && c.scaffoldFileName != ""
    requires |argv| == 3 && argv[1] == "-minbases" && parseInt(argv[2]) == None
    ensures var r := ProcessCommandLine(c, argv, parseInt);
      !r.success && r.lastError == [] && r.minBases == c.minBases
  {
  }

  /** One flag of the command line together with the token after it. */
  datatype Setting =
    | MinBasesSetting(text: string)
    | DistanceSetting(text: string)
    | TmpSetting(path: string)

  /** The two tokens a setting occupies. */
  function SettingTokens(s: Setting): (ts: seq<string>)
    ensures |ts| == 2
  {
    match s
    case MinBasesSetting(t) => ["-minbases", t]
    case DistanceSetting(t) => ["-distance-threshold", t]
    case TmpSetting(p) => ["-tmp", p]
  }

  /** The tokens of a list of settings, in order. */
  function Tokens(settings: seq<Setting>): (ts: seq<string>)
    ensures |ts| == 2 * |settings|
  {
    if settings == [] then [] else SettingTokens(settings[0]) + Tokens(settings[1..])
  }

  /** A threshold value must parse to a non-negative number; any path is fine. */
  predicate ValidSetting(s: Setting, parseInt: string -> Option<int>) {
    match s
    case MinBasesSetting(t) => parseInt(t).Some? && parseInt(t).value >= 0
    case DistanceSetting(t) => parseInt(t).Some? && parseInt(t).value >= 0
    case TmpSetting(_) => true
  }

  /** A token that can stand for a file name: non-empty and none of the
      words the parser treats as a flag. */
  predicate FileNameToken(t: string) {
    t != "" && !IsHelp(t) && t != "-minbases" && t != "-distance-threshold" && t != "-tmp"
  }

  /** The configuration after one setting. */
  function ApplySetting(s: Setting, parseInt: string -> Option<int>, c: Configuration): Configuration {
    match s
    case MinBasesSetting(t) => (match parseInt(t) case Some(v) => c.(minBases := v) case None => c)
    case DistanceSetting(t) => (match parseInt(t) case Some(v) => c.(distanceThreshold := v) case None => c)
    case TmpSetting(p) => c.(tmpPath := Some(p))
  }

  /** The configuration after applying the settings left to right, so a later
      repetition of a flag overrides an earlier one. */
  function Apply(settings: seq<Setting>, parseInt: string -> Option<int>, c: Configuration): Configuration
    decreases |settings|
  {
    if settings == [] then c
    else Apply(settings[1..], parseInt, ApplySetting(settings[0], parseInt, c))
  }

  /** `argv` is the program name, the tokens of valid `settings`, and then
      the reference and scaffold file names. */
  predicate Layout(argv: seq<string>, settings: seq<Setting>, parseInt: string -> Option<int>) {
    && |argv| == 2 * |settings| + 3
    && argv[1..|argv| - 2] == Tokens(settings)
    && (forall k :: 0 <= k < |settings| ==> ValidSetting(settings[k], parseInt))
    && FileNameToken(argv[|argv| - 2]) && FileNameToken(argv[|argv| - 1])
  }

  /** The command lines breakpointCounter accepts. */
  ghost predicate Accepted(argv: seq<string>, parseInt: string -> Option<int>) {
    exists settings :: Layout(argv, settings, parseInt)
  }

  /** Scanning the two tokens of one valid setting applies it. */
  lemma ScanOneSetting(argv: seq<string>, parseInt: string -> Option<int>, i: nat, s: Setting, c: Configuration, serr: seq<Diagnostic>)
    requires i + 1 < |argv| && argv[i] == SettingTokens(s)[0] && argv[i + 1] == SettingTokens(s)[1]
    requires ValidSetting(s, parseInt)
    ensures ScanFrom(argv, parseInt, i, c, serr) == ScanFrom(argv, parseInt, i + 2, ApplySetting(s, parseInt, c), serr)
  {
  }

  /** The settings after the first of a valid list are valid. */
  lemma ValidTail(settings: seq<Setting>, parseInt: string -> Option<int>)
    requires settings != []
    requires forall k :: 0 <= k < |settings| ==> ValidSetting(settings[k], parseInt)
    ensures forall k :: 0 <= k < |settings[1..]| ==> ValidSetting(settings[1..][k], parseInt)
  {
    forall k | 0 <= k < |settings[1..]| ensures ValidSetting(settings[1..][k], parseInt) {
      assert settings[1..][k] == settings[k + 1];
    }
  }

  /** Scanning over the tokens of valid settings applies them and moves past
      them. */
  lemma {:induction false} ScanSettings(argv: seq<string>, parseInt: string -> Option<int>, i: nat, settings: seq<Setting>, c: Configuration, serr: seq<Diagnostic>)
    requires i + 2 * |settings| <= |argv|
    requires argv[i..i + 2 * |settings|] == Tokens(settings)
    requires forall k :: 0 <= k < |settings| ==> ValidSetting(settings[k], parseInt)
    ensures ScanFrom(argv, parseInt, i, c, serr)
         == ScanFrom(argv, parseInt, i + 2 * |settings|, Apply(settings, parseInt, c), serr)
    decreases |settings|
  {
    if settings != [] {
      var s := settings[0];
      Sequences.SliceAfterPair(argv, i, 2 * |settings|, SettingTokens(s), Tokens(settings[1..]));
      ValidTail(settings, parseInt);
      assert ValidSetting(s, parseInt);
      var next := ApplySetting(s, parseInt, c);
      ScanOneSetting(argv, parseInt, i, s, c, serr);
      ScanSettings(argv, parseInt, i + 2, settings[1..], next, serr);
    }
  }

  /** An accepted command line sets the two file names from its last two
      tokens and the thresholds and temporary path from its settings, the last
      occurrence winning; it succeeds and leaves `LastError` empty. */
  lemma AcceptedResult(argv: seq<string>, settings: seq<Setting>, parseInt: string -> Option<int>)
    requires Layout(argv, settings, parseInt)
    ensures ProcessCommandLine(Default(), argv, parseInt)
         == Apply(settings, parseInt, Default()).(success := true,
              referenceFileName := argv[|argv| - 2], scaffoldFileName := argv[|argv| - 1])
  {
    var n := |argv|;
    ScanSettings(argv, parseInt, 1, settings, Default(), []);
    var c := Apply(settings, parseInt, Default());
    ApplyKeeps(settings, parseInt, Default());
    var c1 := c.(referenceFileName := argv[n - 2]);
    assert ScanFrom(argv, parseInt, n - 2, c, []) == ScanFrom(argv, parseInt, n - 1, c1, []);
    assert ScanFrom(argv, parseInt, n - 1, c1, []) == Scan(c1.(scaffoldFileName := argv[n - 1]), false, []);
  }

  /** Settings touch neither the file names nor `success` and `lastError`. */
  lemma {:induction false} ApplyKeeps(settings: seq<Setting>, parseInt: string -> Option<int>, c: Configuration)
    ensures var r := Apply(settings, parseInt, c);
      && r.referenceFileName == c.referenceFileName && r.scaffoldFileName == c.scaffoldFileName
      && r.success == c.success && r.lastError == c.lastError
    decreases |settings|
  {
    if settings != [] {
      var next := ApplySetting(settings[0], parseInt, c);
      ApplyKeeps(settings[1..], parseInt, next);
    }
  }

  /** A field that no setting names keeps its value. */
  lemma {:induction false} ApplyKeepsUnset(settings: seq<Setting>, parseInt: string -> Option<int>, c: Configuration)
    ensures (forall k :: 0 <= k < |settings| ==> !settings[k].MinBasesSetting?) ==>
      Apply(settings, parseInt, c).minBases == c.minBases
    ensures (forall k :: 0 <= k < |settings| ==> !settings[k].DistanceSetting?) ==>
      Apply(settings, parseInt, c).distanceThreshold == c.distanceThreshold
    ensures (forall k :: 0 <= k < |settings| ==> !settings[k].TmpSetting?) ==>
      Apply(settings, parseInt, c).tmpPath == c.tmpPath
    decreases |settings|
  {
    if settings != [] {
      var rest := settings[1..];
      assert forall k :: 0 <= k < |rest| ==> rest[k] == settings[k + 1];
      ApplyKeepsUnset(rest, parseInt, ApplySetting(settings[0], parseInt, c));
    }
  }

  /** The constructor's values are what an accepted command line keeps for
      every flag it does not give: a minimum of 90 bases, a distance
      threshold of 10000, and the temporary path left unset. */
  lemma DefaultsWithoutFlags(argv: seq<string>, settings: seq<Setting>, parseInt: string -> Option<int>)
    requires Layout(argv, settings, parseInt)
    ensures var r := ProcessCommandLine(Default(), argv, parseInt);
      && r.success
      && ((forall k :: 0 <= k < |settings| ==> !settings[k].MinBasesSetting?) ==> r.minBases == 90)
      && ((forall k :: 0 <= k < |settings| ==> !settings[k].DistanceSetting?) ==> r.distanceThreshold == 10000)
      && ((forall k :: 0 <= k < |settings| ==> !settings[k].TmpSetting?) ==> r.tmpPath == None)
  {
    AcceptedResult(argv, settings, parseInt);
    ApplyKeepsUnset(settings, parseInt, Default());
  }

  /** The setting that the flag word at `i` starts, if it is one. */
  function SettingAt(argv: seq<string>, i: nat): (st: Option<Setting>)
    requires i + 1 < |argv|
    ensures st.Some? ==> SettingTokens(st.value) == [argv[i], argv[i + 1]]
    ensures st.None? <==> argv[i] != "-minbases" && argv[i] != "-distance-threshold" && argv[i] != "-tmp"
  {
    if argv[i] == "-minbases" then Some(MinBasesSetting(argv[i + 1]))
    else if argv[i] == "-distance-threshold" then Some(DistanceSetting(argv[i + 1]))
    else if argv[i] == "-tmp" then Some(TmpSetting(argv[i + 1]))
    else None
  }

  /** A scan that ended without a `break` with both file names set. */
  predicate SetsBothNames(s: Scan) {
    !s.broke && s.config.referenceFileName != "" && s.config.scaffoldFileName != ""
  }

  /** A reached token that starts no valid setting breaks the scan, unless it
      is a plain token in the reference position. */
  lemma NoValidSettingBreaks(argv: seq<string>, parseInt: string -> Option<int>, i: nat, c: Configuration, serr: seq<Diagnostic>)
    requires i + 1 < |argv|
    requires !(SettingAt(argv, i).Some? && ValidSetting(SettingAt(argv, i).value, parseInt))
    requires IsHelp(argv[i]) || SettingAt(argv, i).Some? || i + 2 < |argv|
    ensures ScanFrom(argv, parseInt, i, c, serr).broke
  {
  }

  /** From the reference position with no name set yet, the scan sets both
      names only when the last two tokens are file names. */
  lemma NamesFromLastTwo(argv: seq<string>, parseInt: string -> Option<int>, c: Configuration, serr: seq<Diagnostic>)
    requires |argv| >= 2 && c.referenceFileName == "" && c.scaffoldFileName == ""
    requires !IsHelp(argv[|argv| - 2]) && SettingAt(argv, |argv| - 2).None?
    ensures SetsBothNames(ScanFrom(argv, parseInt, |argv| - 2, c, serr)) ==>
      FileNameToken(argv[|argv| - 2]) && FileNameToken(argv[|argv| - 1])
  {
    var c1 := c.(referenceFileName := argv[|argv| - 2]);
    assert ScanFrom(argv, parseInt, |argv| - 2, c, serr) == ScanFrom(argv, parseInt, |argv| - 1, c1, serr);
    var last := argv[|argv| - 1];
    if !IsHelp(last) && last != "-minbases" && last != "-distance-threshold" && last != "-tmp" {
      assert ScanFrom(argv, parseInt, |argv| - 1, c1, serr) == Scan(c1.(scaffoldFileName := last), false, serr);
    }
  }

  /** From the last token with no reference name, the scan cannot set both
      names. */
  lemma LastTokenAloneFails(argv: seq<string>, parseInt: string -> Option<int>, c: Configuration, serr: seq<Diagnostic>)
    requires |argv| >= 1 && c.referenceFileName == ""
    ensures !SetsBothNames(ScanFrom(argv, parseInt, |argv| - 1, c, serr))
  {
    var token := argv[|argv| - 1];
    if !IsHelp(token) && token != "-minbases" && token != "-distance-threshold" && token != "-tmp" {
      assert ScanFrom(argv, parseInt, |argv| - 1, c, serr)
          == Scan(c.(scaffoldFileName := token), false, serr);
    }
  }

  /** A scan from `i` that sets both (still empty) file names without a
      `break` went over the tokens of valid settings up to `argc - 2`, and
      the last two tokens are file names. */
  lemma {:induction false} SuccessfulScanLayout(argv: seq<string>, parseInt: string -> Option<int>, i: nat, c: Configuration, serr: seq<Diagnostic>)
    returns (settings: seq<Setting>)
    requires c.referenceFileName == "" && c.scaffoldFileName == ""
    requires i <= |argv|
    ensures SetsBothNames(ScanFrom(argv, parseInt, i, c, serr)) ==>
      && i + 2 * |settings| == |argv| - 2
      && argv[i..|argv| - 2] == Tokens(settings)
      && (forall k :: 0 <= k < |settings| ==> ValidSetting(settings[k], parseInt))
      && FileNameToken(argv[|argv| - 2]) && FileNameToken(argv[|argv| - 1])
    decreases |argv| - i
  {
    settings := [];
    if i + 2 <= |argv| {
      var setting := SettingAt(argv, i);
      if setting.Some? && ValidSetting(setting.value, parseInt) {
        var next := ApplySetting(setting.value, parseInt, c);
        ScanOneSetting(argv, parseInt, i, setting.value, c, serr);
        var rest := SuccessfulScanLayout(argv, parseInt, i + 2, next, serr);
        settings := [setting.value] + rest;
        assert settings[1..] == rest;
        assert Tokens(settings) == SettingTokens(setting.value) + Tokens(rest);
        if SetsBothNames(ScanFrom(argv, parseInt, i, c, serr)) {
          assert argv[i..|argv| - 2] == SettingTokens(setting.value) + argv[i + 2..|argv| - 2];
          assert forall k :: 0 <= k < |settings| ==> ValidSetting(settings[k], parseInt) by {
            forall k | 0 <= k < |settings| ensures ValidSetting(settings[k], parseInt) {
              if k > 0 { assert settings[k] == rest[k - 1]; }
            }
          }
        }
      } else if i == |argv| - 2 && !IsHelp(argv[i]) && setting.None? {
        NamesFromLastTwo(argv, parseInt, c, serr);
      } else {
        NoValidSettingBreaks(argv, parseInt, i, c, serr);
      }
    } else if i + 1 == |argv| {
      LastTokenAloneFails(argv, parseInt, c, serr);
    }
  }

  /** From the defaults, the parse succeeds exactly on the accepted command
      lines: any reached `-help`/`-h`, unknown token, flag without a value,
      unparsable or negative threshold, or missing file name makes it fail. */
  lemma SucceedsExactlyWhenAccepted(argv: seq<string>, parseInt: string -> Option<int>)
    ensures ProcessCommandLine(Default(), argv, parseInt).success <==> Accepted(argv, parseInt)
  {
    if Accepted(argv, parseInt) {
      var settings :| Layout(argv, settings, parseInt);
      AcceptedResult(argv, settings, parseInt);
    }
    if ProcessCommandLine(Default(), argv, parseInt).success {
      var settings := SuccessfulScanLayout(argv, parseInt, 1, Default(), []);
      assert Layout(argv, settings, parseInt);
    }
  }
}

=== FILE: breakpoint_count.dfy ===
/** The breakpoint classifier of breakpointCounter: adjacent local alignments
    of one scaffold (query) against the reference are compared pairwise, and
    each discontinuity is tallied as a join, an orientation or an order
    breakpoint. */
module BreakpointCount {
  import opened Wrappers

  /** One MUMmer alignment hit, already parsed. */
  datatype MummerCoord = MummerCoord(
    referenceId: string,
    queryId: string,
    referencePosition: int,
    queryPosition: int,
    isReferenceReverse: bool,
    isQueryReverse: bool)

  /** The counters `Total`, `Joins`, `Orientation` and `Order`. */
  datatype Tally = Tally(total: int, joins: int, orientation: int, order: int)

  datatype Kind = Join | Orientation | Order

  /** How much `Total` exceeds the sum of the category counters. */
  function Imbalance(t: Tally): int {
    t.total - (t.joins + t.orientation + t.order)
  }

  /** The three checks of `IsBreakpoint`, first match wins. */
  function Classify(a: MummerCoord, b: MummerCoord): Option<Kind> {
    if a.referenceId != b.referenceId then Some(Join)
    else if (a.isReferenceReverse != b.isReferenceReverse) != (a.isQueryReverse != b.isQueryReverse) then Some(Orientation)
    else if a.referencePosition >= b.referencePosition && a.isReferenceReverse == a.isQueryReverse then Some(Order)
    else None
  }

  /** The tally after one more breakpoint of kind `k`. */
  function Bump(t: Tally, k: Kind): Tally {
    match k
    case Join => t.(total := t.total + 1, joins := t.joins + 1)
    case Orientation => t.(total := t.total + 1, orientation := t.orientation + 1)
    case Order => t.(total := t.total + 1, order := t.order + 1)
  }

  datatype Step = Step(broken: bool, tally: Tally)

  /** `IsBreakpoint(a, b)` with the counters it updates. */
  function IsBreakpoint(t: Tally, a: MummerCoord, b: MummerCoord): (s: Step)
    ensures a.referenceId != b.referenceId ==>
      s == Step(true, t.(total := t.total + 1, joins := t.joins + 1))
    ensures (&& a.referenceId == b.referenceId
             && (a.isReferenceReverse != b.isReferenceReverse) != (a.isQueryReverse != b.isQueryReverse)) ==>
      s == Step(true, t.(total := t.total + 1, orientation := t.orientation + 1))
    ensures (&& a.referenceId == b.referenceId
             && (a.isReferenceReverse != b.isReferenceReverse) == (a.isQueryReverse != b.isQueryReverse)
             && a.referencePosition >= b.referencePosition && a.isReferenceReverse == a.isQueryReverse) ==>
      s == Step(true, t.(total := t.total + 1, order := t.order + 1))
    ensures s.broken <==>
      || a.referenceId != b.referenceId
      || (a.isReferenceReverse != b.isReferenceReverse) != (a.isQueryReverse != b.isQueryReverse)
      || (a.referencePosition >= b.referencePosition && a.isReferenceReverse == a.isQueryReverse)
    ensures !s.broken ==> s.tally == t
    ensures Imbalance(s.tally) == Imbalance(t)
  {
    match Classify(a, b)
    case None => Step(false, t)
    case Some(k) => Step(true, Bump(t, k))
  }

  /** A true result raises `Total` and exactly one category counter by one; a
      false result leaves every counter as it was. */
  lemma ExactlyOneCategory(t: Tally, a: MummerCoord, b: MummerCoord)
    ensures var u := IsBreakpoint(t, a, b).tally;
      var raised := (if u.joins != t.joins then 1 else 0)
                  + (if u.orientation != t.orientation then 1 else 0)
                  + (if u.order != t.order then 1 else 0);
      && (IsBreakpoint(t, a, b).broken ==> u.total == t.total + 1 && raised == 1)
      && (!IsBreakpoint(t, a, b).broken ==> u == t)
  {
  }

  /** The result of `processAlignmentGroup` or `ProcessAlignments`: the
      returned count and the counters afterwards. */
  datatype Counted = Counted(count: int, tally: Tally)

  /** `processAlignmentGroup`: compare each coordinate with its successor in
      the run. */
  function ProcessGroup(t: Tally, run: seq<MummerCoord>): (c: Counted)
    ensures 0 <= c.count
    ensures |run| > 0 ==> c.count <= |run| - 1
    ensures c.tally.total == t.total + c.count
    ensures Imbalance(c.tally) == Imbalance(t)
    decreases |run|
  {
    if |run| < 2 then Counted(0, t)
    else
      var s := IsBreakpoint(t, run[0], run[1]);
      var rest := ProcessGroup(s.tally, run[1..]);
      Counted((if s.broken then 1 else 0) + rest.count, rest.tally)
  }

  /** How many leading coordinates share the query of the first one. */
  function RunLength(coords: seq<MummerCoord>, q: string): (n: nat)
    ensures n <= |coords|
    ensures |coords| > 0 && coords[0].queryId == q ==> n > 0
    decreases |coords|
  {
    if |coords| == 0 || coords[0].queryId != q then 0 else 1 + RunLength(coords[1..], q)
  }

  /** The inner loop stops exactly at the first coordinate of another query:
      all before it have query `q`, and it is the end or has another query. */
  lemma {:induction false} RunLengthSpec(coords: seq<MummerCoord>, q: string)
    ensures forall k :: 0 <= k < RunLength(coords, q) ==> coords[k].queryId == q
    ensures RunLength(coords, q) == |coords| || coords[RunLength(coords, q)].queryId != q
    decreases |coords|
  {
    if |coords| > 0 && coords[0].queryId == q {
      RunLengthSpec(coords[1..], q);
      forall k | 0 <= k < RunLength(coords, q)
        ensures coords[k].queryId == q
      {
        if k > 0 {
          assert coords[k] == coords[1..][k - 1];
        }
      }
    }
  }

  /** A run: non-empty and every member has the same query. */
  predicate Uniform(run: seq<MummerCoord>) {
    |run| > 0 && forall k :: 0 <= k < |run| ==> run[k].queryId == run[0].queryId
  }

  /** The inner `while` of `ProcessAlignments`: the maximal runs of equal
      `QueryID`, in order. Every run is non-empty with a single query. */
  function Runs(coords: seq<MummerCoord>): seq<seq<MummerCoord>>
    decreases |coords|
  {
    if |coords| == 0 then []
    else
      var n := RunLength(coords, coords[0].queryId);
      assert n > 0;
      [coords[..n]] + Runs(coords[n..])
  }

  /** Every run is non-empty with a single query, and the first run starts at
      the first hit. */
  lemma {:induction false} RunsUniform(coords: seq<MummerCoord>)
    ensures forall i :: 0 <= i < |Runs(coords)| ==> Uniform(Runs(coords)[i])
    ensures |coords| > 0 ==> |Runs(coords)| > 0 && Runs(coords)[0] != [] && Runs(coords)[0][0] == coords[0]
    decreases |coords|
  {
    if |coords| > 0 {
      var n := RunLength(coords, coords[0].queryId);
      RunLengthSpec(coords, coords[0].queryId);
      var rest := coords[n..];
      RunsUniform(rest);
      var tail: seq<seq<MummerCoord>> := Runs(rest);
      var runs: seq<seq<MummerCoord>> := Runs(coords);
      assert runs == [coords[..n]] + tail;
      forall i | 0 <= i < |runs|
        ensures Uniform(runs[i])
      {
        if i > 0 {
          assert runs[i] == tail[i - 1];
        }
      }
    }
  }

  function Flatten(runs: seq<seq<MummerCoord>>): seq<MummerCoord> {
    if |runs| == 0 then [] else runs[0] + Flatten(runs[1..])
  }

  /** The runs concatenate back to the input: nothing is lost or repeated. */
  lemma {:induction false} RunsFlatten(coords: seq<MummerCoord>)
    ensures Flatten(Runs(coords)) == coords
    decreases |coords|
  {
    if |coords| > 0 {
      var n := RunLength(coords, coords[0].queryId);
      var rest := coords[n..];
      var runs: seq<seq<MummerCoord>> := Runs(coords);
      assert runs == [coords[..n]] + Runs(rest);
      assert runs[0] == coords[..n] && runs[1..] == Runs(rest);
      assert Flatten(runs) == coords[..n] + Flatten(Runs(rest));
      RunsFlatten(rest);
      assert coords[..n] + rest == coords;
    }
  }

  /** Two non-empty runs whose queries differ. */
  predicate DifferentQueries(a: seq<MummerCoord>, b: seq<MummerCoord>) {
    |a| > 0 && |b| > 0 && a[0].queryId != b[0].queryId
  }

  /** The runs are maximal: two neighbouring runs have different queries. */
  lemma {:induction false} RunsMaximal(coords: seq<MummerCoord>)
    ensures forall i :: 0 <= i < |Runs(coords)| - 1 ==>
      DifferentQueries(Runs(coords)[i], Runs(coords)[i + 1])
    decreases |coords|
  {
    RunsUniform(coords);
    if |coords| > 0 {
      var n := RunLength(coords, coords[0].queryId);
      RunLengthSpec(coords, coords[0].queryId);
      var rest := coords[n..];
      var tail: seq<seq<MummerCoord>> := Runs(rest);
      RunsMaximal(rest);
      var runs: seq<seq<MummerCoord>> := Runs(coords);
      assert runs == [coords[..n]] + tail;
      RunsUniform(rest);
      forall i | 0 <= i < |runs| - 1
        ensures DifferentQueries(runs[i], runs[i + 1])
      {
        if i == 0 {
          assert runs[1] == tail[0];
        } else {
          assert runs[i] == tail[i - 1];
          assert runs[i + 1] == tail[i];
        }
      }
    }
  }

  /** The outer `while` of `ProcessAlignments`: process each run in order,
      threading the counters through. */
  function ProcessRuns(t: Tally, runs: seq<seq<MummerCoord>>): (c: Counted)
    ensures 0 <= c.count
    ensures c.tally.total == t.total + c.count
    ensures Imbalance(c.tally) == Imbalance(t)
    decreases |runs|
  {
    if |runs| == 0 then Counted(0, t)
    else
      var g := ProcessGroup(t, runs[0]);
      var rest := ProcessRuns(g.tally, runs[1..]);
      Counted(g.count + rest.count, rest.tally)
  }

  /** `ProcessAlignments(coords, references)`; `references` is never read, so
      it is not a parameter here. The returned count is the rise of `Total`,
      and `Total - (Joins + Orientation + Order)` is unchanged. */
  function ProcessAlignments(t: Tally, coords: seq<MummerCoord>): (c: Counted)
    ensures 0 <= c.count
    ensures c.tally.total == t.total + c.count
    ensures Imbalance(c.tally) == Imbalance(t)
  {
    ProcessRuns(t, Runs(coords))
  }

  /** The reference count: over all adjacent pairs of the input, those with the
      same query that classify as a breakpoint. */
  function SameQueryBreakpoints(coords: seq<MummerCoord>): nat
    decreases |coords|
  {
    if |coords| < 2 then 0
    else
      (if coords[0].queryId == coords[1].queryId && Classify(coords[0], coords[1]).Some? then 1 else 0)
      + SameQueryBreakpoints(coords[1..])
  }

  /** Within one run, the group count is the reference count. */
  lemma {:induction false} GroupCountsPairs(t: Tally, run: seq<MummerCoord>)
    requires forall k :: 0 <= k < |run| ==> run[k].queryId == run[0].queryId
    ensures ProcessGroup(t, run).count == SameQueryBreakpoints(run)
    decreases |run|
  {
    if |run| >= 2 {
      var s := IsBreakpoint(t, run[0], run[1]);
      assert run[1..][0] == run[1];
      GroupCountsPairs(s.tally, run[1..]);
    }
  }

  /** Splitting between two coordinates with different queries splits the
      reference count. */
  lemma {:induction false} SplitAtQueryChange(a: seq<MummerCoord>, b: seq<MummerCoord>)
    requires |a| > 0 && |b| > 0 ==> a[|a| - 1].queryId != b[0].queryId
    ensures SameQueryBreakpoints(a + b) == SameQueryBreakpoints(a) + SameQueryBreakpoints(b)
    decreases |a|
  {
    if |a| == 0 {
      assert a + b == b;
    } else if |a| == 1 {
      if |b| > 0 {
        assert (a + b)[1..] == b;
      }
    } else {
      assert (a + b)[1..] == a[1..] + b;
      SplitAtQueryChange(a[1..], b);
    }
  }

  /** `ProcessAlignments` never compares across runs: its count is exactly the
      number of adjacent same-query pairs that are breakpoints. */
  lemma {:induction false} ProcessAlignmentsCountsSameQueryPairs(t: Tally, coords: seq<MummerCoord>)
    ensures ProcessAlignments(t, coords).count == SameQueryBreakpoints(coords)
    decreases |coords|
  {
    if |coords| > 0 {
      var n := RunLength(coords, coords[0].queryId);
      RunLengthSpec(coords, coords[0].queryId);
      var run := coords[..n];
      var rest := coords[n..];
      var runs: seq<seq<MummerCoord>> := Runs(coords);
      assert runs == [run] + Runs(rest);
      assert runs[0] == run && runs[1..] == Runs(rest);
      var g := ProcessGroup(t, run);
      assert ProcessAlignments(t, coords).count == g.count + ProcessAlignments(g.tally, rest).count;
      GroupCountsPairs(t, run);
      ProcessAlignmentsCountsSameQueryPairs(g.tally, rest);
      assert run + rest == coords;
      SplitAtQueryChange(run, rest);
    }
  }

  /** Example: the second hit lies before the first on the same reference in
      the same orientation, which is an order breakpoint. */
  lemma OrderExample(t: Tally)
    ensures var a := MummerCoord("1", "1", 100, 0, false, false);
      var b := MummerCoord("1", "1", 50, 0, false, false);
      IsBreakpoint(t, a, b) == Step(true, t.(total := t.total + 1, order := t.order + 1))
  {
  }
}

=== FILE: coverage.dfy ===
/** coverageUtil: per-base coverage depth of each contig from the start
    positions of the reads placed on it, and the two outputs built from it. */
module Coverage {
  import opened SequenceReader

  /** The parsed coverage data: the average read length (already converted to
      `int`) and, per contig, the start positions of its reads. The contig
      count is the number of per-contig lists. */
  datatype ReadCoverage = ReadCoverage(averageReadLength: int, readLocations: seq<seq<int>>)

  function ContigCount(coverage: ReadCoverage): nat {
    |coverage.readLocations|
  }

  function Max(a: int, b: int): int {
    if a >= b then a else b
  }

  function Min(a: int, b: int): int {
    if a <= b then a else b
  }

  /** A read starting at `start` covers base `k`: the increment loop runs from
      `max(start, 0)` while `k < start + avgReadLength`. */
  predicate Covers(start: int, avgReadLength: int, k: int) {
    Max(start, 0) <= k < start + avgReadLength
  }

  /** The number of reads starting at `starts` that cover base `k`. */
  function Coverers(starts: seq<int>, avgReadLength: int, k: int): (n: nat)
    ensures n <= |starts|
    decreases |starts|
  {
    if |starts| == 0 then 0
    else Coverers(starts[..|starts| - 1], avgReadLength, k)
         + (if Covers(starts[|starts| - 1], avgReadLength, k) then 1 else 0)
  }

  /** `row` is the depth array of a contig of `len` bases with reads at `starts`. */
  predicate IsDepthRow(row: seq<int>, starts: seq<int>, avgReadLength: int, len: nat) {
    |row| == len && forall k :: 0 <= k < len ==> row[k] == Coverers(starts, avgReadLength, k)
  }

  /** One contig of `calculateDepth`: a zeroed array of `len` cells, then for
      each read one increment per base of `[max(start, 0), start + avgReadLength)`
      that lies inside the contig. */
  method DepthRow(starts: seq<int>, avgReadLength: int, len: nat) returns (row: seq<int>)
    ensures IsDepthRow(row, starts, avgReadLength, len)
  {
    var depth := new int[len](_ => 0);
    var j := 0;
    while j < |starts|
      invariant 0 <= j <= |starts|
      invariant forall p :: 0 <= p < len ==> depth[p] == Coverers(starts[..j], avgReadLength, p)
    {
      var start := starts[j];
      assert starts[..j + 1][..j] == starts[..j];
      var k := Max(start, 0);
      while k < start + avgReadLength && k < len
        invariant Max(start, 0) <= k
        invariant k > Max(start, 0) ==> k <= start + avgReadLength && k <= len
        invariant forall p :: 0 <= p < len ==>
          depth[p] == Coverers(starts[..j], avgReadLength, p) + (if Max(start, 0) <= p < k then 1 else 0)
        decreases len - k
      {
        depth[k] := depth[k] + 1;
        k := k + 1;
      }
      j := j + 1;
    }
    assert starts[..|starts|] == starts;
    row := depth[..];
  }

  /** `calculateDepth`. `depth0` is the depth vector `main` sized to the number
      of contigs; on a count mismatch it is returned untouched. */
  method CalculateDepth(coverage: ReadCoverage, contigs: seq<FastASequence>, depth0: seq<seq<int>>)
    returns (ok: bool, depth: seq<seq<int>>)
    requires |depth0| == |contigs|
    ensures ok <==> ContigCount(coverage) == |contigs|
    ensures !ok ==> depth == depth0
    ensures ok ==> |depth| == |contigs| && forall i :: 0 <= i < |contigs| ==>
      IsDepthRow(depth[i], coverage.readLocations[i], coverage.averageReadLength, |contigs[i].nucleotides|)
  {
    var nContigs := ContigCount(coverage);
    if nContigs != |contigs| {
      return false, depth0;
    }
    depth := depth0;
    var i := 0;
    while i < nContigs
      invariant 0 <= i <= nContigs && |depth| == nContigs
      invariant forall i' :: 0 <= i' < i ==>
        IsDepthRow(depth[i'], coverage.readLocations[i'], coverage.averageReadLength, |contigs[i'].nucleotides|)
    {
      var row := DepthRow(coverage.readLocations[i], coverage.averageReadLength, |contigs[i].nucleotides|);
      depth := depth[i := row];
      i := i + 1;
    }
    return true, depth;
  }

  /** Every depth cell lies between 0 and the number of reads of the contig. */
  lemma DepthBounds(row: seq<int>, starts: seq<int>, avgReadLength: int, len: nat)
    requires IsDepthRow(row, starts, avgReadLength, len)
    ensures forall k :: 0 <= k < len ==> 0 <= row[k] <= |starts|
  {
  }

  /** With an average read length that is not positive, no read covers any
      base. */
  lemma {:induction false} NonPositiveLengthCoversNothing(starts: seq<int>, avgReadLength: int, k: int)
    requires avgReadLength <= 0
    ensures Coverers(starts, avgReadLength, k) == 0
    decreases |starts|
  {
    if |starts| > 0 {
      NonPositiveLengthCoversNothing(starts[..|starts| - 1], avgReadLength, k);
    }
  }

  /** The number of bases of a contig of length `len` that a read starting at
      `start` covers: the length of `[max(start, 0), min(start + avgReadLength, len))`. */
  function ClampedLength(start: int, avgReadLength: int, len: nat): nat {
    Max(0, Min(start + avgReadLength, len) - Max(start, 0))
  }

  /** The sum over the reads of their clamped lengths. */
  function TotalClamped(starts: seq<int>, avgReadLength: int, len: nat): nat
    decreases |starts|
  {
    if |starts| == 0 then 0
    else TotalClamped(starts[..|starts| - 1], avgReadLength, len) + ClampedLength(starts[|starts| - 1], avgReadLength, len)
  }

  /** Sum of the first `len` depth cells. */
  function DepthSum(starts: seq<int>, avgReadLength: int, len: nat): int
    decreases len
  {
    if len == 0 then 0 else DepthSum(starts, avgReadLength, len - 1) + Coverers(starts, avgReadLength, len - 1)
  }

  /** How many of the first `len` bases one read covers. */
  function CoveredCount(start: int, avgReadLength: int, len: nat): int
    decreases len
  {
    if len == 0 then 0
    else CoveredCount(start, avgReadLength, len - 1) + (if Covers(start, avgReadLength, len - 1) then 1 else 0)
  }

  lemma {:induction false} CoveredCountIsClampedLength(start: int, avgReadLength: int, len: nat)
    ensures CoveredCount(start, avgReadLength, len) == ClampedLength(start, avgReadLength, len)
    decreases len
  {
    if len > 0 {
      CoveredCountIsClampedLength(start, avgReadLength, len - 1);
    }
  }

  lemma {:induction false} DepthSumSplitsLastRead(starts: seq<int>, avgReadLength: int, len: nat)
    requires |starts| > 0
    ensures DepthSum(starts, avgReadLength, len)
         == DepthSum(starts[..|starts| - 1], avgReadLength, len) + CoveredCount(starts[|starts| - 1], avgReadLength, len)
    decreases len
  {
    if len > 0 {
      DepthSumSplitsLastRead(starts, avgReadLength, len - 1);
    }
  }

  /** Summed over the bases, the depth counts each read once per base it
      covers: the total depth of a contig is the sum of the clamped read lengths. */
  lemma {:induction false} DepthSumIsTotalClamped(starts: seq<int>, avgReadLength: int, len: nat)
    ensures DepthSum(starts, avgReadLength, len) == TotalClamped(starts, avgReadLength, len)
    decreases |starts|
  {
    if |starts| == 0 {
      ZeroReadsZeroSum(avgReadLength, len);
    } else {
      DepthSumSplitsLastRead(starts, avgReadLength, len);
      DepthSumIsTotalClamped(starts[..|starts| - 1], avgReadLength, len);
      CoveredCountIsClampedLength(starts[|starts| - 1], avgReadLength, len);
    }
  }

  lemma {:induction false} ZeroReadsZeroSum(avgReadLength: int, len: nat)
    ensures DepthSum([], avgReadLength, len) == 0
    decreases len
  {
    if len > 0 {
      ZeroReadsZeroSum(avgReadLength, len - 1);
    }
  }

  /** The sum of a sequence of integers. */
  function Sum(xs: seq<int>): int
    decreases |xs|
  {
    if |xs| == 0 then 0 else Sum(xs[..|xs| - 1]) + xs[|xs| - 1]
  }

  /** The sum of a depth row computed by `calculateDepth` equals the sum of the
      clamped read lengths. */
  lemma {:induction false} RowSumIsTotalClamped(row: seq<int>, starts: seq<int>, avgReadLength: int, len: nat)
    requires IsDepthRow(row, starts, avgReadLength, len)
    ensures Sum(row) == TotalClamped(starts, avgReadLength, len)
  {
    RowSumIsDepthSum(row, starts, avgReadLength, len);
    assert row[..len] == row;
    DepthSumIsTotalClamped(starts, avgReadLength, len);
  }

  lemma {:induction false} RowSumIsDepthSum(row: seq<int>, starts: seq<int>, avgReadLength: int, n: nat)
    requires n <= |row|
    requires forall k :: 0 <= k < n ==> row[k] == Coverers(starts, avgReadLength, k)
    ensures Sum(row[..n]) == DepthSum(starts, avgReadLength, n)
    decreases n
  {
    if n > 0 {
      assert row[..n][..n - 1] == row[..n - 1];
      RowSumIsDepthSum(row, starts, avgReadLength, n - 1);
    }
    if n == |row| {
      assert row[..n] == row;
    }
  }

  /** Total number of bases over the contigs. */
  function TotalLength(contigs: seq<FastASequence>): nat
    decreases |contigs|
  {
    if |contigs| == 0 then 0 else TotalLength(contigs[..|contigs| - 1]) + |contigs[|contigs| - 1].nucleotides|
  }

  lemma {:induction false} TotalLengthPrefix(contigs: seq<FastASequence>, i: nat)
    requires i <= |contigs|
    ensures TotalLength(contigs[..i]) <= TotalLength(contigs)
    ensures i < |contigs| ==> TotalLength(contigs[..i]) + |contigs[i].nucleotides| <= TotalLength(contigs)
    decreases |contigs| - i
  {
    if i < |contigs| {
      assert contigs[..i + 1][..i] == contigs[..i];
      TotalLengthPrefix(contigs, i + 1);
    } else {
      assert contigs[..i] == contigs;
    }
  }

  /** Where the values of contig `i` start in the depth output. */
  function Offset(contigs: seq<FastASequence>, i: nat): (o: nat)
    requires i < |contigs|
    ensures o + |contigs[i].nucleotides| <= TotalLength(contigs)
  {
    TotalLengthPrefix(contigs, i);
    TotalLength(contigs[..i])
  }

  /** The values of the first `n` contigs sit at their offsets in `values`. */
  predicate Placed(values: seq<int>, contigs: seq<FastASequence>, depth: seq<seq<int>>, n: nat)
    requires n <= |contigs| <= |depth|
    requires forall i :: 0 <= i < |contigs| ==> |depth[i]| >= |contigs[i].nucleotides|
  {
    forall i :: 0 <= i < n ==>
      && Offset(contigs, i) + |contigs[i].nucleotides| <= |values|
      && values[Offset(contigs, i)..Offset(contigs, i) + |contigs[i].nucleotides|]
         == depth[i][..|contigs[i].nucleotides|]
  }

  lemma PlacedExtend(values: seq<int>, contigs: seq<FastASequence>, depth: seq<seq<int>>, n: nat)
    requires n < |contigs| <= |depth|
    requires forall i :: 0 <= i < |contigs| ==> |depth[i]| >= |contigs[i].nucleotides|
    requires Placed(values, contigs, depth, n)
    requires |values| == Offset(contigs, n)
    ensures Placed(values + depth[n][..|contigs[n].nucleotides|], contigs, depth, n + 1)
  {
    var chunk := depth[n][..|contigs[n].nucleotides|];
    var values' := values + chunk;
    forall i | 0 <= i < n + 1
      ensures Offset(contigs, i) + |contigs[i].nucleotides| <= |values'|
      ensures values'[Offset(contigs, i)..Offset(contigs, i) + |contigs[i].nucleotides|]
           == depth[i][..|contigs[i].nucleotides|]
    {
      var o := Offset(contigs, i);
      var len := |contigs[i].nucleotides|;
      if i < n {
        assert values'[o..o + len] == values[o..o + len];
      } else {
        assert values'[o..o + len] == chunk;
      }
    }
  }

  /** All contigs placed: base `j` of contig `i` is at `Offset(contigs, i) + j`. */
  lemma PlacedElements(values: seq<int>, contigs: seq<FastASequence>, depth: seq<seq<int>>)
    requires |contigs| <= |depth|
    requires forall i :: 0 <= i < |contigs| ==> |depth[i]| >= |contigs[i].nucleotides|
    requires Placed(values, contigs, depth, |contigs|)
    ensures forall i, j :: 0 <= i < |contigs| && 0 <= j < |contigs[i].nucleotides| ==>
      Offset(contigs, i) + j < |values| && values[Offset(contigs, i) + j] == depth[i][j]
  {
    forall i, j | 0 <= i < |contigs| && 0 <= j < |contigs[i].nucleotides|
      ensures Offset(contigs, i) + j < |values| && values[Offset(contigs, i) + j] == depth[i][j]
    {
      var o := Offset(contigs, i);
      var len := |contigs[i].nucleotides|;
      assert values[o..o + len][j] == depth[i][..len][j];
    }
  }

  /** `outputDepth`: the values written, one per line. `fileOpened` is whether
      `fopen` of the output file succeeded. Contig by contig in input order,
      positions ascending, one value per base. */
  method OutputDepth(fileOpened: bool, contigs: seq<FastASequence>, depth: seq<seq<int>>)
    returns (ok: bool, values: seq<int>)
    requires |depth| >= |contigs|
    requires forall i :: 0 <= i < |contigs| ==> |depth[i]| >= |contigs[i].nucleotides|
    ensures ok == fileOpened
    ensures ok ==> |values| == TotalLength(contigs)
    ensures ok ==> forall i, j :: 0 <= i < |contigs| && 0 <= j < |contigs[i].nucleotides| ==>
      values[Offset(contigs, i) + j] == depth[i][j]
  {
    if !fileOpened {
      return false, [];
    }
    values := [];
    var i := 0;
    while i < |contigs|
      invariant 0 <= i <= |contigs|
      invariant |values| == TotalLength(contigs[..i])
      invariant Placed(values, contigs, depth, i)
    {
      var len := |contigs[i].nucleotides|;
      assert Offset(contigs, i) == |values|;
      assert contigs[..i + 1][..i] == contigs[..i];
      PlacedExtend(values, contigs, depth, i);
      values := values + depth[i][..len];
      i := i + 1;
    }
    assert contigs[..i] == contigs;
    PlacedElements(values, contigs, depth);
    return true, values;
  }

  /** One line of `outputMIPSformat`, without the floating-point average. */
  datatype SummaryRow = SummaryRow(index: int, comment: string, length: int, coverageSum: int)

  /** `outputMIPSformat`: one row per contig in input order, with the 1-based
      index, the comment, the length and the sum of the contig's depth cells. */
  method OutputMipsFormat(contigs: seq<FastASequence>, depth: seq<seq<int>>) returns (rows: seq<SummaryRow>)
    requires |depth| >= |contigs|
    requires forall i :: 0 <= i < |contigs| ==> |depth[i]| >= |contigs[i].nucleotides|
    ensures |rows| == |contigs|
    ensures forall i :: 0 <= i < |contigs| ==>
      && rows[i].index == i + 1
      && rows[i].comment == contigs[i].comment
      && rows[i].length == |contigs[i].nucleotides|
      && rows[i].coverageSum == Sum(depth[i][..|contigs[i].nucleotides|])
  {
    rows := [];
    var i := 0;
    while i < |contigs|
      invariant 0 <= i <= |contigs| && |rows| == i
      invariant forall i' :: 0 <= i' < i ==>
        && rows[i'].index == i' + 1
        && rows[i'].comment == contigs[i'].comment
        && rows[i'].length == |contigs[i'].nucleotides|
        && rows[i'].coverageSum == Sum(depth[i'][..|contigs[i'].nucleotides|])
    {
      var len := |contigs[i].nucleotides|;
      var coverageSum := 0;
      var j := 0;
      while j < len
        invariant 0 <= j <= len
        invariant coverageSum == Sum(depth[i][..j])
      {
        assert depth[i][..j + 1][..j] == depth[i][..j];
        coverageSum := coverageSum + depth[i][j];
        j := j + 1;
      }
      rows := rows + [SummaryRow(i + 1, contigs[i].comment, len, coverageSum)];
      i := i + 1;
    }
  }

  /** After a successful `calculateDepth`, the coverage sum `outputMIPSformat`
      reports for contig `i` is the total clamped length of its reads. */
  lemma SummarySumIsReadTotal(coverage: ReadCoverage, contigs: seq<FastASequence>, depth: seq<seq<int>>, i: nat)
    requires |depth| == |contigs| == ContigCount(coverage) && i < |contigs|
    requires IsDepthRow(depth[i], coverage.readLocations[i], coverage.averageReadLength, |contigs[i].nucleotides|)
    ensures Sum(depth[i][..|contigs[i].nucleotides|])
         == TotalClamped(coverage.readLocations[i], coverage.averageReadLength, |contigs[i].nucleotides|)
  {
    assert depth[i][..|contigs[i].nucleotides|] == depth[i];
    RowSumIsTotalClamped(depth[i], coverage.readLocations[i], coverage.averageReadLength, |contigs[i].nucleotides|);
  }

  /** Example: a contig of 10 bases, one read at 8, average read length 5:
      bases 8 and 9 have depth 1, bases 0 to 7 depth 0. */
  lemma ClampAtContigEnd(row: seq<int>)
    requires IsDepthRow(row, [8], 5, 10)
    ensures row == [0, 0, 0, 0, 0, 0, 0, 0, 1, 1]
  {
    assert [8][..0] == [];
  }
}

=== FILE: kmer_config.dfy ===
/** The command line of kmer: `kmer [-kmer length] [-verbose yes|no] <input>`.

    `argv` includes the program name at index 0, so `argc` is `|argv|`.
    `Helpers::ParseInt` is not part of this model and is passed in as
    `parseInt`, `None` standing for a failed parse. */
module KmerConfig {
  import opened Wrappers
  import Sequences
  import opened Text

  /** The messages written to the `serr` stream that becomes `LastError`.
      Every `-kmer` and `-verbose` error goes to `cerr` instead. */
  datatype Diagnostic =
    | NotEnoughArguments
    | Help
    | UnknownArgument(token: string)
    | NoInputFile

  datatype Configuration = Configuration(
    success: bool,
    kmer: int,
    verbose: bool,
    inputFileName: string,
    lastError: seq<Diagnostic>)

  /** The constructor `Configuration()`. */
  function Default(): Configuration {
    Configuration(false, 36, false, "", [])
  }

  predicate IsHelp(token: string) {
    token == "-help" || token == "-h"
  }

  /** The state of the scanning loop: the configuration as modified so far,
      whether a `break` ended the loop with failure, and what `serr` holds. */
  datatype Scan = Scan(config: Configuration, broke: bool, serr: seq<Diagnostic>)

  /** The `while (i < argc)` loop from index `i`. */
  function ScanFrom(argv: seq<string>, parseInt: string -> Option<int>, i: nat, c: Configuration, serr: seq<Diagnostic>): Scan
    decreases |argv| - i
  {
    if i >= |argv| then Scan(c, false, serr)
    else
      var token := argv[i];
      if IsHelp(token) then Scan(c, true, serr + [Help])
      else if token == "-kmer" then
        if |argv| - i - 1 < 1 then Scan(c, true, serr)
        else match parseInt(argv[i + 1])
          case None => Scan(c, true, serr)
          case Some(v) =>
            if v <= 0 then Scan(c, true, serr)
            else ScanFrom(argv, parseInt, i + 2, c.(kmer := v), serr)
      else if token == "-verbose" then
        if |argv| - i - 1 < 1 then Scan(c, true, serr)
        else if EqualsIgnoringCase(argv[i + 1], "yes") then
          ScanFrom(argv, parseInt, i + 2, c.(verbose := true), serr)
        else if EqualsIgnoringCase(argv[i + 1], "no") then
          ScanFrom(argv, parseInt, i + 2, c.(verbose := false), serr)
        else Scan(c, true, serr)
      else if i == |argv| - 1 then
        ScanFrom(argv, parseInt, i + 1, c.(inputFileName := argv[|argv| - 1]), serr)
      else Scan(c, true, serr + [UnknownArgument(token)])
  }

  /** `ProcessCommandLine(argc, argv)` on configuration `c`. */
  function ProcessCommandLine(c: Configuration, argv: seq<string>, parseInt: string -> Option<int>): (r: Configuration)
    ensures |argv| == 1 ==> r == c.(success := false, lastError := [NotEnoughArguments])
    ensures r.success ==> r.inputFileName != ""
    ensures r.success ==> r.lastError == c.lastError
  {
    if |argv| == 1 then c.(success := false, lastError := [NotEnoughArguments])
    else
      var s := ScanFrom(argv, parseInt, 1, c, []);
      var serr := s.serr + (if s.config.inputFileName == "" then [NoInputFile] else []);
      var ok := !s.broke && s.config.inputFileName != "";
      s.config.(success := ok, lastError := if ok then c.lastError else serr)
  }

  /** The scan only stores `argv[argc - 1]` as input name, only stores a
      positive k-mer length, and does not touch `success` or `lastError`. */
  lemma {:induction false} ScanStores(argv: seq<string>, parseInt: string -> Option<int>, i: nat, c: Configuration, serr: seq<Diagnostic>)
    requires |argv| >= 1
    ensures var r := ScanFrom(argv, parseInt, i, c, serr).config;
      && (r.inputFileName == c.inputFileName || r.inputFileName == argv[|argv| - 1])
      && (r.kmer == c.kmer || r.kmer > 0)
      && r.success == c.success && r.lastError == c.lastError
    decreases |argv| - i
  {
    if i < |argv| {
      var token := argv[i];
      if IsHelp(token) {
      } else if token == "-kmer" {
        if |argv| - i - 1 >= 1 && parseInt(argv[i + 1]).Some? && parseInt(argv[i + 1]).value > 0 {
          ScanStores(argv, parseInt, i + 2, c.(kmer := parseInt(argv[i + 1]).value), serr);
        }
      } else if token == "-verbose" {
        if |argv| - i - 1 >= 1 {
          if EqualsIgnoringCase(argv[i + 1], "yes") {
            ScanStores(argv, parseInt, i + 2, c.(verbose := true), serr);
          } else if EqualsIgnoringCase(argv[i + 1], "no") {
            ScanStores(argv, parseInt, i + 2, c.(verbose := false), serr);
          }
        }
      } else if i == |argv| - 1 {
        ScanStores(argv, parseInt, i + 1, c.(inputFileName := argv[|argv| - 1]), serr);
      }
    }
  }

  /** A missing or rejected `-kmer` or `-verbose` value is reported on `cerr`,
      so when the input name was already set `LastError` is empty although the
      parse failed, and neither setting changes. */
  lemma BadValueLeavesLastErrorEmpty(c: Configuration, argv: seq<string>, parseInt: string -> Option<int>)
    requires c.inputFileName != ""
    requires |argv| >= 2 && (argv[1] == "-kmer" || argv[1] == "-verbose")
    requires || |argv| == 2
             || (argv[1] == "-kmer" && !(parseInt(argv[2]).Some? && parseInt(argv[2]).value > 0))
             || (argv[1] == "-verbose" && !EqualsIgnoringCase(argv[2], "yes") && !EqualsIgnoringCase(argv[2], "no"))
    ensures var r := ProcessCommandLine(c, argv, parseInt);
      !r.success && r.lastError == [] && r.kmer == c.kmer && r.verbose == c.verbose
  {
  }

  /** Starting from the defaults, a successful parse took the input name from
      the last argument and holds a positive k-mer length. */
  lemma SuccessTakesLastToken(argv: seq<string>, parseInt: string -> Option<int>)
    requires ProcessCommandLine(Default(), argv, parseInt).success
    ensures var r := ProcessCommandLine(Default(), argv, parseInt);
      && |argv| >= 2
      && r.inputFileName == argv[|argv| - 1] != ""
      && r.kmer > 0
  {
    if |argv| >= 1 {
      ScanStores(argv, parseInt, 1, Default(), []);
    }
  }

  /** A positive k-mer length stays positive across any parse. */
  lemma KmerStaysPositive(c: Configuration, argv: seq<string>, parseInt: string -> Option<int>)
    requires c.kmer > 0
    ensures ProcessCommandLine(c, argv, parseInt).kmer > 0
  {
    if |argv| >= 1 {
      ScanStores(argv, parseInt, 1, c, []);
    }
  }

  /** `-kmer v <input>`: a value that does not parse or is not positive fails
      and keeps the previous length; a positive one is stored. */
  lemma KmerFlag(c: Configuration, v: string, input: string, parseInt: string -> Option<int>)
    requires input != "" && !IsHelp(input) && input != "-kmer" && input != "-verbose"
    ensures var r := ProcessCommandLine(c, ["kmer", "-kmer", v, input], parseInt);
      && (parseInt(v).Some? && parseInt(v).value > 0 <==> r.success)
      && (r.success ==> r.kmer == parseInt(v).value && r.inputFileName == input)
      && (!r.success ==> r.kmer == c.kmer)
  {
    var argv := ["kmer", "-kmer", v, input];
    if parseInt(v).Some? && parseInt(v).value > 0 {
      var c1 := c.(kmer := parseInt(v).value);
      assert ScanFrom(argv, parseInt, 3, c1, []) == Scan(c1.(inputFileName := input), false, []);
    }
  }

  /** `-verbose v <input>`: succeeds exactly when `v` is "yes" or "no" in any
      letter case, and sets `verbose` to whether it was "yes". */
  lemma VerboseFlag(c: Configuration, v: string, input: string, parseInt: string -> Option<int>)
    requires input != "" && !IsHelp(input) && input != "-kmer" && input != "-verbose"
    ensures var r := ProcessCommandLine(c, ["kmer", "-verbose", v, input], parseInt);
      && (r.success <==> EqualsIgnoringCase(v, "yes") || EqualsIgnoringCase(v, "no"))
      && (r.success ==> r.verbose == EqualsIgnoringCase(v, "yes") && r.inputFileName == input)
      && (!r.success ==> r.verbose == c.verbose)
  {
    var argv := ["kmer", "-verbose", v, input];
    if EqualsIgnoringCase(v, "yes") {
      var c1 := c.(verbose := true);
      assert ScanFrom(argv, parseInt, 3, c1, []) == Scan(c1.(inputFileName := input), false, []);
    } else if EqualsIgnoringCase(v, "no") {
      var c1 := c.(verbose := false);
      assert ScanFrom(argv, parseInt, 3, c1, []) == Scan(c1.(inputFileName := input), false, []);
    }
  }

  /** "YES", "Yes" and "yes" all switch verbose output on. */
  lemma VerboseIgnoresCase(parseInt: string -> Option<int>)
    ensures ProcessCommandLine(Default(), ["kmer", "-verbose", "YeS", "in.fa"], parseInt).verbose
  {
    VerboseFlag(Default(), "YeS", "in.fa", parseInt);
  }

  /** One flag of the command line together with the token after it. */
  datatype Setting =
    | KmerSetting(text: string)
    | VerboseSetting(text: string)

  /** The two tokens a setting occupies. */
  function SettingTokens(s: Setting): (ts: seq<string>)
    ensures |ts| == 2
  {
    match s
    case KmerSetting(t) => ["-kmer", t]
    case VerboseSetting(t) => ["-verbose", t]
  }

  /** The tokens of a list of settings, in order. */
  function Tokens(settings: seq<Setting>): (ts: seq<string>)
    ensures |ts| == 2 * |settings|
  {
    if settings == [] then [] else SettingTokens(settings[0]) + Tokens(settings[1..])
  }

  /** A k-mer length must parse to a positive number, a verbose switch must
      be yes or no in any letter case. */
  predicate ValidSetting(s: Setting, parseInt: string -> Option<int>) {
    match s
    case KmerSetting(t) => parseInt(t).Some? && parseInt(t).value > 0
    case VerboseSetting(t) => EqualsIgnoringCase(t, "yes") || EqualsIgnoringCase(t, "no")
  }

  /** A token that can stand for the input file name: non-empty and none of
      the words the parser treats as a flag. */
  predicate FileNameToken(t: string) {
    t != "" && !IsHelp(t) && t != "-kmer" && t != "-verbose"
  }

  /** The configuration after one setting. */
  function ApplySetting(s: Setting, parseInt: string -> Option<int>, c: Configuration): Configuration {
    match s
    case KmerSetting(t) => (match parseInt(t) case Some(v) => c.(kmer := v) case None => c)
    case VerboseSetting(t) => c.(verbose := EqualsIgnoringCase(t, "yes"))
  }

  /** The configuration after applying the settings left to right, so a later
      repetition of a flag overrides an earlier one. */
  function Apply(settings: seq<Setting>, parseInt: string -> Option<int>, c: Configuration): Configuration
    decreases |settings|
  {
    if settings == [] then c
    else Apply(settings[1..], parseInt, ApplySetting(settings[0], parseInt, c))
  }

  /** `argv` is the program name, the tokens of valid `settings`, and then
      the input file name. */
  predicate Layout(argv: seq<string>, settings: seq<Setting>, parseInt: string -> Option<int>) {
    && |argv| == 2 * |settings| + 2
    && argv[1..|argv| - 1] == Tokens(settings)
    && (forall k :: 0 <= k < |settings| ==> ValidSetting(settings[k], parseInt))
    && FileNameToken(argv[|argv| - 1])
  }

  /** The command lines kmer accepts. */
  ghost predicate Accepted(argv: seq<string>, parseInt: string -> Option<int>) {
    exists settings :: Layout(argv, settings, parseInt)
  }

  /** Scanning the two tokens of one valid setting applies it. */
  lemma ScanOneSetting(argv: seq<string>, parseInt: string -> Option<int>, i: nat, s: Setting, c: Configuration, serr: seq<Diagnostic>)
    requires i + 1 < |argv| && argv[i] == SettingTokens(s)[0] && argv[i + 1] == SettingTokens(s)[1]
    requires ValidSetting(s, parseInt)
    ensures ScanFrom(argv, parseInt, i, c, serr) == ScanFrom(argv, parseInt, i + 2, ApplySetting(s, parseInt, c), serr)
  {
  }

  /** The settings after the first of a valid list are valid. */
  lemma ValidTail(settings: seq<Setting>, parseInt: string -> Option<int>)
    requires settings != []
    requires forall k :: 0 <= k < |settings| ==> ValidSetting(settings[k], parseInt)
    ensures forall k :: 0 <= k < |settings[1..]| ==> ValidSetting(settings[1..][k], parseInt)
  {
    forall k | 0 <= k < |settings[1..]| ensures ValidSetting(settings[1..][k], parseInt) {
      assert settings[1..][k] == settings[k + 1];
    }
  }

  /** Scanning over the tokens of valid settings applies them and moves past
      them. */
  lemma {:induction false} ScanSettings(argv: seq<string>, parseInt: string -> Option<int>, i: nat, settings: seq<Setting>, c: Configuration, serr: seq<Diagnostic>)
    requires i + 2 * |settings| <= |argv|
    requires argv[i..i + 2 * |settings|] == Tokens(settings)
    requires forall k :: 0 <= k < |settings| ==> ValidSetting(settings[k], parseInt)
    ensures ScanFrom(argv, parseInt, i, c, serr)
         == ScanFrom(argv, parseInt, i + 2 * |settings|, Apply(settings, parseInt, c), serr)
    decreases |settings|
  {
    if settings != [] {
      var s := settings[0];
      Sequences.SliceAfterPair(argv, i, 2 * |settings|, SettingTokens(s), Tokens(settings[1..]));
      ValidTail(settings, parseInt);
      assert ValidSetting(s, parseInt);
      var next := ApplySetting(s, parseInt, c);
      ScanOneSetting(argv, parseInt, i, s, c, serr);
      ScanSettings(argv, parseInt, i + 2, settings[1..], next, serr);
    }
  }

  /** Settings touch neither the input name nor `success` and `lastError`. */
  lemma {:induction false} ApplyKeeps(settings: seq<Setting>, parseInt: string -> Option<int>, c: Configuration)
    ensures var r := Apply(settings, parseInt, c);
      r.inputFileName == c.inputFileName && r.success == c.success && r.lastError == c.lastError
    decreases |settings|
  {
    if settings != [] {
      ApplyKeeps(settings[1..], parseInt, ApplySetting(settings[0], parseInt, c));
    }
  }

  /** A field that no setting names keeps its value. */
  lemma {:induction false} ApplyKeepsUnset(settings: seq<Setting>, parseInt: string -> Option<int>, c: Configuration)
    ensures (forall k :: 0 <= k < |settings| ==> !settings[k].KmerSetting?) ==>
      Apply(settings, parseInt, c).kmer == c.kmer
    ensures (forall k :: 0 <= k < |settings| ==> !settings[k].VerboseSetting?) ==>
      Apply(settings, parseInt, c).verbose == c.verbose
    decreases |settings|
  {
    if settings != [] {
      var rest := settings[1..];
      assert forall k :: 0 <= k < |rest| ==> rest[k] == settings[k + 1];
      ApplyKeepsUnset(rest, parseInt, ApplySetting(settings[0], parseInt, c));
    }
  }

  /** The constructor's values are what an accepted command line keeps for
      every flag it does not give: a k-mer length of 36 and no verbose
      output. So `kmer <input>` alone runs with those two. */
  lemma DefaultsWithoutFlags(argv: seq<string>, settings: seq<Setting>, parseInt: string -> Option<int>)
    requires Layout(argv, settings, parseInt)
    ensures var r := ProcessCommandLine(Default(), argv, parseInt);
      && r.success
      && ((forall k :: 0 <= k < |settings| ==> !settings[k].KmerSetting?) ==> r.kmer == 36)
      && ((forall k :: 0 <= k < |settings| ==> !settings[k].VerboseSetting?) ==> !r.verbose)
  {
    AcceptedResult(argv, settings, parseInt);
    ApplyKeepsUnset(settings, parseInt, Default());
  }

  /** An accepted command line takes the input name from its last token and
      the k-mer length and verbosity from its settings, the last occurrence
      winning; it succeeds and leaves `LastError` empty. */
  lemma AcceptedResult(argv: seq<string>, settings: seq<Setting>, parseInt: string -> Option<int>)
    requires Layout(argv, settings, parseInt)
    ensures ProcessCommandLine(Default(), argv, parseInt)
         == Apply(settings, parseInt, Default()).(success := true, inputFileName := argv[|argv| - 1])
  {
    var n := |argv|;
    ScanSettings(argv, parseInt, 1, settings, Default(), []);
    var c := Apply(settings, parseInt, Default());
    ApplyKeeps(settings, parseInt, Default());
    assert ScanFrom(argv, parseInt, n - 1, c, []) == Scan(c.(inputFileName := argv[n - 1]), false, []);
  }

  /** The setting that the flag word at `i` starts, if it is one. */
  function SettingAt(argv: seq<string>, i: nat): (st: Option<Setting>)
    requires i + 1 < |argv|
    ensures st.Some? ==> SettingTokens(st.value) == [argv[i], argv[i + 1]]
    ensures st.None? <==> argv[i] != "-kmer" && argv[i] != "-verbose"
  {
    if argv[i] == "-kmer" then Some(KmerSetting(argv[i + 1]))
    else if argv[i] == "-verbose" then Some(VerboseSetting(argv[i + 1]))
    else None
  }

  /** A scan that ended without a `break` with the input name set. */
  predicate SetsName(s: Scan) {
    !s.broke && s.config.inputFileName != ""
  }

  /** A reached token before the last one that starts no valid setting breaks
      the scan. */
  lemma NoValidSettingBreaks(argv: seq<string>, parseInt: string -> Option<int>, i: nat, c: Configuration, serr: seq<Diagnostic>)
    requires i + 1 < |argv|
    requires !(SettingAt(argv, i).Some? && ValidSetting(SettingAt(argv, i).value, parseInt))
    ensures ScanFrom(argv, parseInt, i, c, serr).broke
  {
  }

  /** From the last token, the scan sets the input name only when that
      token is a file name. */
  lemma NameFromLast(argv: seq<string>, parseInt: string -> Option<int>, c: Configuration, serr: seq<Diagnostic>)
    requires |argv| >= 1 && c.inputFileName == ""
    ensures SetsName(ScanFrom(argv, parseInt, |argv| - 1, c, serr)) ==> FileNameToken(argv[|argv| - 1])
  {
    var token := argv[|argv| - 1];
    if !IsHelp(token) && token != "-kmer" && token != "-verbose" {
      assert ScanFrom(argv, parseInt, |argv| - 1, c, serr)
          == Scan(c.(inputFileName := token), false, serr);
    }
  }

  /** A scan from `i` that sets the (still empty) input name without a
      `break` went over the tokens of valid settings up to `argc - 1`, and the
      last token is a file name. */
  lemma {:induction false} SuccessfulScanLayout(argv: seq<string>, parseInt: string -> Option<int>, i: nat, c: Configuration, serr: seq<Diagnostic>)
    returns (settings: seq<Setting>)
    requires c.inputFileName == ""
    requires i <= |argv|
    ensures SetsName(ScanFrom(argv, parseInt, i, c, serr)) ==>
      && i + 2 * |settings| == |argv| - 1
      && argv[i..|argv| - 1] == Tokens(settings)
      && (forall k :: 0 <= k < |settings| ==> ValidSetting(settings[k], parseInt))
      && FileNameToken(argv[|argv| - 1])
    decreases |argv| - i
  {
    settings := [];
    if i + 2 <= |argv| {
      var setting := SettingAt(argv, i);
      if setting.Some? && ValidSetting(setting.value, parseInt) {
        var next := ApplySetting(setting.value, parseInt, c);
        ScanOneSetting(argv, parseInt, i, setting.value, c, serr);
        var rest := SuccessfulScanLayout(argv, parseInt, i + 2, next, serr);
        settings := [setting.value] + rest;
        assert settings[1..] == rest;
        assert Tokens(settings) == SettingTokens(setting.value) + Tokens(rest);
        if SetsName(ScanFrom(argv, parseInt, i, c, serr)) {
          assert argv[i..|argv| - 1] == SettingTokens(setting.value) + argv[i + 2..|argv| - 1];
          assert forall k :: 0 <= k < |settings| ==> ValidSetting(settings[k], parseInt) by {
            forall k | 0 <= k < |settings| ensures ValidSetting(settings[k], parseInt) {
              if k > 0 { assert settings[k] == rest[k - 1]; }
            }
          }
        }
      } else {
        NoValidSettingBreaks(argv, parseInt, i, c, serr);
      }
    } else if i + 1 == |argv| {
      NameFromLast(argv, parseInt, c, serr);
    }
  }

  /** From the defaults, the parse succeeds exactly on the accepted command
      lines: any reached `-help`/`-h`, unknown token, flag without a value,
      bad k-mer length or verbose switch, or missing input name makes it
      fail. */
  lemma SucceedsExactlyWhenAccepted(argv: seq<string>, parseInt: string -> Option<int>)
    ensures ProcessCommandLine(Default(), argv, parseInt).success <==> Accepted(argv, parseInt)
  {
    if Accepted(argv, parseInt) {
      var settings :| Layout(argv, settings, parseInt);
      AcceptedResult(argv, settings, parseInt);
    }
    if ProcessCommandLine(Default(), argv, parseInt).success {
      var settings := SuccessfulScanLayout(argv, parseInt, 1, Default(), []);
      assert Layout(argv, settings, parseInt);
    }
  }
}

=== FILE: readdiff_config.dfy ===
/** The command line of readDiff: `readDiff <A.fasta> <B.fasta> <out.fasta>`.

    `argv` includes the program name at index 0, so `argc` is `|argv|`. */
module ReadDiffConfig {

  /** The messages written to the `serr` stream that becomes `LastError`. */
  datatype Diagnostic =
    | NotEnoughArguments
    | Help
    | UnknownArgument(token: string)
    | NoFirstInputFile
    | NoSecondInputFile
    | NoOutputFile

  datatype Configuration = Configuration(
    success: bool,
    aFileName: string,
    bFileName: string,
    cFileName: string,
    lastError: seq<Diagnostic>)

  /** The constructor `Configuration()`. */
  function Default(): Configuration {
    Configuration(false, "", "", "", [])
  }

  predicate IsHelp(token: string) {
    token == "-help" || token == "-h"
  }

  datatype Scan = Scan(config: Configuration, broke: bool, serr: seq<Diagnostic>)

  /** The `while (i < argc)` loop from index `i`: the last three arguments are
      the three file names, anything before them is unknown. */
  function ScanFrom(argv: seq<string>, i: nat, c: Configuration, serr: seq<Diagnostic>): Scan
    decreases |argv| - i
  {
    if i >= |argv| then Scan(c, false, serr)
    else
      var token := argv[i];
      if IsHelp(token) then Scan(c, true, serr + [Help])
      else if i == |argv| - 3 then ScanFrom(argv, i + 1, c.(aFileName := argv[|argv| - 3]), serr)
      else if i == |argv| - 2 then ScanFrom(argv, i + 1, c.(bFileName := argv[|argv| - 2]), serr)
      else if i == |argv| - 1 then ScanFrom(argv, i + 1, c.(cFileName := argv[|argv| - 1]), serr)
      else Scan(c, true, serr + [UnknownArgument(token)])
  }

  /** The diagnostics for the empty file names, each checked on its own. */
  function MissingNames(c: Configuration): seq<Diagnostic> {
    (if c.aFileName == "" then [NoFirstInputFile] else [])
    + (if c.bFileName == "" then [NoSecondInputFile] else [])
    + (if c.cFileName == "" then [NoOutputFile] else [])
  }

  /** `ProcessCommandLine(argc, argv)` on configuration `c`. */
  function ProcessCommandLine(c: Configuration, argv: seq<string>): (r: Configuration)
    ensures |argv| == 1 ==> r == c.(success := false, lastError := [NotEnoughArguments])
    ensures r.success ==> r.aFileName != "" && r.bFileName != "" && r.cFileName != ""
    ensures r.success ==> r.lastError == c.lastError
    ensures !r.success && |argv| != 1 ==>
      && (r.aFileName == "" ==> NoFirstInputFile in r.lastError)
      && (r.bFileName == "" ==> NoSecondInputFile in r.lastError)
      && (r.cFileName == "" ==> NoOutputFile in r.lastError)
  {
    if |argv| == 1 then c.(success := false, lastError := [NotEnoughArguments])
    else
      var s := ScanFrom(argv, 1, c, []);
      var ok := !s.broke && MissingNames(s.config) == [];
      s.config.(success := ok, lastError := if ok then c.lastError else s.serr + MissingNames(s.config))
  }

  /** The three well-formed arguments: a successful parse from the defaults. */
  predicate WellFormedArguments(argv: seq<string>) {
    && |argv| == 4
    && (forall k :: 1 <= k < 4 ==> !IsHelp(argv[k]))
    && (forall k :: 1 <= k < 4 ==> argv[k] != "")
  }

  /** Starting from the defaults, the parse succeeds exactly when there are
      three arguments, none of them `-help`/`-h` and none empty; the names are
      then those three arguments in order. */
  lemma SucceedsExactlyOnThreeNames(argv: seq<string>)
    ensures ProcessCommandLine(Default(), argv).success <==> WellFormedArguments(argv)
    ensures WellFormedArguments(argv) ==>
      var r := ProcessCommandLine(Default(), argv);
      r.aFileName == argv[1] && r.bFileName == argv[2] && r.cFileName == argv[3]
  {
    var d := Default();
    if |argv| == 4 {
      if !IsHelp(argv[1]) {
        var c1 := d.(aFileName := argv[1]);
        assert ScanFrom(argv, 1, d, []) == ScanFrom(argv, 2, c1, []);
        if !IsHelp(argv[2]) {
          var c2 := c1.(bFileName := argv[2]);
          assert ScanFrom(argv, 2, c1, []) == ScanFrom(argv, 3, c2, []);
          if !IsHelp(argv[3]) {
            assert ScanFrom(argv, 3, c2, []) == Scan(c2.(cFileName := argv[3]), false, []);
          }
        }
      }
    } else if |argv| == 3 {
      if !IsHelp(argv[1]) {
        var c1 := d.(bFileName := argv[1]);
        assert ScanFrom(argv, 1, d, []) == ScanFrom(argv, 2, c1, []);
        if !IsHelp(argv[2]) {
          assert ScanFrom(argv, 2, c1, []).config.aFileName == "";
        }
      }
    } else if |argv| == 2 {
      assert ScanFrom(argv, 1, d, []).config.aFileName == "";
    }
  }

  /** The constructor leaves all three names empty, so a command line too
      short to reach a name position keeps that name empty and reports it. */
  lemma ShortCommandLineKeepsEmptyNames(argv: seq<string>)
    requires 1 <= |argv| < 4
    ensures var r := ProcessCommandLine(Default(), argv);
      && !r.success
      && (|argv| == 1 ==> r.aFileName == "" && r.bFileName == "" && r.cFileName == "")
      && (|argv| <= 3 ==> r.aFileName == "")
      && (|argv| == 2 ==> r.bFileName == "")
      && (|argv| >= 2 ==> NoFirstInputFile in r.lastError)
      && (|argv| == 2 ==> NoSecondInputFile in r.lastError)
  {
    var d := Default();
    if |argv| == 3 {
      if !IsHelp(argv[1]) {
        var c1 := d.(bFileName := argv[1]);
        assert ScanFrom(argv, 1, d, []) == ScanFrom(argv, 2, c1, []);
        assert ScanFrom(argv, 2, c1, []).config.aFileName == "";
      }
    } else if |argv| == 2 {
      if !IsHelp(argv[1]) {
        var c1 := d.(cFileName := argv[1]);
        assert ScanFrom(argv, 1, d, []) == ScanFrom(argv, 2, c1, []);
      }
    }
  }

  /** `-help` or `-h` as the first argument stops the scan with failure and
      changes nothing but `success` and `lastError`. */
  lemma HelpFirstFails(c: Configuration, argv: seq<string>)
    requires |argv| >= 2 && IsHelp(argv[1])
    ensures var r := ProcessCommandLine(c, argv);
      !r.success && r == c.(success := false, lastError := r.lastError) && r.lastError[0] == Help
  {
  }
}

=== FILE: reader.dfy ===
/** The FASTA/FASTQ record readers of the Common library.

    A file is the sequence of lines `fgets` returns: each line keeps its
    terminating '\n' when it has one. The `FILE*` becomes a handle holding those
    lines and a cursor (the index of the next line `fgets` would return), so
    `fseek(fin, -strlen(line), SEEK_CUR)` after reading a header is "the cursor
    stays on that header" and `ftell`/`fseek(index)` are "the cursor is left
    where it was". */
module SequenceReader {
  import opened Wrappers
  import opened Text

  datatype Format = FastA | FastQ

  /** The character that opens a record header and that `NumReads` counts. */
  function Marker(f: Format): char {
    match f
    case FastA => '>'
    case FastQ => '@'
  }

  /** `fin`: either NULL, or an open file with its read position. */
  datatype Handle = Closed | OpenFile(lines: seq<string>, cursor: nat)

  /** A `FastAReader` or `FastQReader`: the handle, the size `MaxLine` of its
      `line`/`buf` buffers, and the `num_reads` cache (-1 when not computed). */
  datatype Reader = Reader(format: Format, maxLine: nat, handle: Handle, numReads: int)

  datatype FastASequence = FastASequence(nucleotides: string, comment: string)

  datatype FastQSequence = FastQSequence(nucleotides: string, comment: string, quality: string)

  /** A value returned together with the reader state after the call. */
  datatype Answer<T> = Answer(value: T, reader: Reader)

  /** The three ways one `Read` call ends: `fgets` found no line (returns false,
      nothing changes), the first line is not a header (`runtime_error`), or a record. */
  datatype ReadOutcome<T> = EndOfFile | BadHeader | Parsed(record: T, next: Reader)

  /** `Read(vector&)`: either every record was read, or a `Read` threw. */
  datatype Batch<T> = Loaded(records: seq<T>, next: Reader) | Aborted

  /** The lines `fgets` produces from a text file whose lines are all shorter
      than the buffer: none is empty, none holds a newline before its last
      character, and all but the last end with a newline. */
  predicate WellFormedFile(lines: seq<string>, maxLine: nat) {
    forall k :: 0 <= k < |lines| ==>
      && 0 < |lines[k]| < maxLine
      && (forall p :: 0 <= p < |lines[k]| - 1 ==> lines[k][p] != '\n')
      && (k < |lines| - 1 ==> lines[k][|lines[k]| - 1] == '\n')
  }

  /** Number of lines of `lines` that start with `m`. */
  function CountMarked(lines: seq<string>, m: char): nat {
    if |lines| == 0 then 0
    else (if StartsWith(lines[0], m) then 1 else 0) + CountMarked(lines[1..], m)
  }

  /** The indices of the lines that start with `m`. */
  function MarkedLines(lines: seq<string>, m: char): set<nat> {
    set k: nat | k < |lines| && StartsWith(lines[k], m)
  }

  predicate Valid(r: Reader) {
    && r.numReads >= -1
    && match r.handle
       case Closed => r.numReads == -1
       case OpenFile(lines, cursor) =>
         && WellFormedFile(lines, r.maxLine)
         && cursor <= |lines|
         && (r.numReads >= 0 ==> r.numReads == CountMarked(lines, Marker(r.format)))
  }

  /** The constructor: no file, no cached count. */
  function NewReader(format: Format, maxLine: nat): (r: Reader)
    ensures Valid(r) && r.handle.Closed?
    ensures r.format == format && r.maxLine == maxLine
  {
    Reader(format, maxLine, Closed, -1)
  }

  /** `Reader::IsOpen`: whether `fin` is non-NULL. */
  function IsOpen(r: Reader): (b: bool)
    ensures b <==> r.handle.OpenFile?
  {
    r.handle != Closed
  }

  /** `Reader::Open`. `file` is what `fopen` gives: `None` when it fails. */
  function Open(r: Reader, file: Option<seq<string>>): (a: Answer<bool>)
    requires Valid(r)
    requires file.Some? ==> WellFormedFile(file.value, r.maxLine)
    ensures Valid(a.reader)
    ensures a.value <==> r.handle.Closed? && file.Some?
    ensures !a.value ==> a.reader == r
    ensures a.value ==> a.reader == r.(handle := OpenFile(file.value, 0)) && a.reader.numReads == -1
  {
    if r.handle.OpenFile? then Answer(false, r)
    else if file.None? then Answer(false, r)
    else Answer(true, r.(handle := OpenFile(file.value, 0)))
  }

  /** `Reader::Close`. */
  function Close(r: Reader): (a: Answer<bool>)
    requires Valid(r)
    ensures Valid(a.reader) && a.reader.handle.Closed?
    ensures a.value <==> r.handle.OpenFile?
    ensures a.reader.numReads == -1
    ensures a.reader.format == r.format && a.reader.maxLine == r.maxLine
  {
    if r.handle.OpenFile? then Answer(true, r.(handle := Closed, numReads := -1))
    else Answer(false, r)
  }

  /** `IsOpen` follows `Open` and `Close`: a successful `Open` makes it true,
      a failed one leaves it as it was, and `Close` always makes it false. */
  lemma IsOpenTracksOpenClose(r: Reader, file: Option<seq<string>>)
    requires Valid(r)
    requires file.Some? ==> WellFormedFile(file.value, r.maxLine)
    ensures IsOpen(Open(r, file).reader) <==> IsOpen(r) || file.Some?
    ensures Open(r, file).value <==> !IsOpen(r) && IsOpen(Open(r, file).reader)
    ensures !IsOpen(Close(r).reader)
    ensures Close(r).value <==> IsOpen(r)
  {
  }

  /** Closing a reader that was just opened gives back the closed reader, so
      opening the same file again starts from the same state. */
  lemma OpenCloseRoundTrip(r: Reader, file: seq<string>)
    requires Valid(r) && r.handle.Closed?
    requires WellFormedFile(file, r.maxLine)
    ensures Open(r, Some(file)).value
    ensures Close(Open(r, Some(file)).reader) == Answer(true, r)
  {
  }

  /** The indices at or after `j` of the lines that start with `m`. */
  function MarkedFrom(lines: seq<string>, j: nat, m: char): set<nat> {
    set k: nat | j <= k < |lines| && StartsWith(lines[k], m)
  }

  lemma {:induction false} CountMarkedIsMarkedFrom(lines: seq<string>, j: nat, m: char)
    requires j <= |lines|
    ensures CountMarked(lines[j..], m) == |MarkedFrom(lines, j, m)|
    decreases |lines| - j
  {
    if j < |lines| {
      CountMarkedIsMarkedFrom(lines, j + 1, m);
      assert lines[j..][1..] == lines[j + 1..];
      var head: set<nat> := if StartsWith(lines[j], m) then {j} else {};
      assert MarkedFrom(lines, j, m) == head + MarkedFrom(lines, j + 1, m);
      assert j !in MarkedFrom(lines, j + 1, m);
    } else {
      assert MarkedFrom(lines, j, m) == {};
    }
  }

  lemma CountMarkedIsMarkedLines(lines: seq<string>, m: char)
    ensures CountMarked(lines, m) == |MarkedLines(lines, m)|
  {
    CountMarkedIsMarkedFrom(lines, 0, m);
    assert lines[0..] == lines;
    assert MarkedFrom(lines, 0, m) == MarkedLines(lines, m);
  }

  /** `NumReads`: 0 on a closed reader; otherwise the number of lines of the
      whole file starting with the format's marker, computed once and then
      served from the cache until `Close`. The read position is not moved. */
  function NumReads(r: Reader): (a: Answer<int>)
    requires Valid(r)
    ensures Valid(a.reader)
    ensures r.handle.Closed? ==> a.value == 0 && a.reader == r
    ensures r.handle.OpenFile? ==>
      && a.value == |MarkedLines(r.handle.lines, Marker(r.format))|
      && a.reader == r.(numReads := a.value)
  {
    if !IsOpen(r) then Answer(0, r)
    else
      var lines := r.handle.lines;
      CountMarkedIsMarkedLines(lines, Marker(r.format));
      if r.numReads >= 0 then Answer(r.numReads, r)
      else
        var n := CountMarked(lines, Marker(r.format));
        Answer(n, r.(numReads := n))
  }

  /** A second `NumReads` returns the same count and changes nothing. */
  lemma NumReadsIsCached(r: Reader)
    requires Valid(r)
    ensures NumReads(NumReads(r).reader) == Answer(NumReads(r).value, NumReads(r).reader)
  {
  }

  /** The index of the first line at or after `j` that starts with `m`, or `|lines|`. */
  function FirstMarkedFrom(lines: seq<string>, j: nat, m: char): (s: nat)
    requires j <= |lines|
    ensures j <= s <= |lines|
    ensures s == |lines| || StartsWith(lines[s], m)
    ensures forall k :: j <= k < s ==> !StartsWith(lines[k], m)
    decreases |lines| - j
  {
    if j == |lines| || StartsWith(lines[j], m) then j else FirstMarkedFrom(lines, j + 1, m)
  }

  /** The concatenation of the lines, each with its trailing white space removed. */
  function ConcatTrimmed(lines: seq<string>): string {
    if |lines| == 0 then "" else TrimEnd(lines[0]) + ConcatTrimmed(lines[1..])
  }

  datatype BodyScan = BodyScan(body: string, stop: nat)

  /** The body loop shared by both readers: starting at line `j`, trim each line
      and append it to the `buf` chunk (of `capacity` characters including the
      terminator), first flushing the chunk into `acc` when the line would not
      fit; stop at the first line starting with `stopMark` or at the end of the
      file, and flush what is left. `stop` is the index of the line that ended
      the loop. The precondition on the recursive call is that `strcpy` never
      writes past the end of `buf`. */
  function ScanBody(lines: seq<string>, j: nat, stopMark: char, capacity: nat, acc: string, buf: string): (r: BodyScan)
    requires j <= |lines|
    requires |buf| < capacity
    requires forall k :: j <= k < |lines| ==> |lines[k]| < capacity
    decreases |lines| - j
  {
    if j == |lines| || StartsWith(lines[j], stopMark) then
      BodyScan(if |buf| > 0 then acc + buf else acc, j)
    else
      var line := TrimEnd(lines[j]);
      if |line| + |buf| + 1 > capacity then
        ScanBody(lines, j + 1, stopMark, capacity, acc + buf, line)
      else
        ScanBody(lines, j + 1, stopMark, capacity, acc, buf + line)
  }

  /** The chunked flushing loses and repeats nothing: the body is the plain
      concatenation of the trimmed lines up to the first `stopMark` line. */
  lemma {:induction false} ScanBodyIsConcatenation(lines: seq<string>, j: nat, stopMark: char, capacity: nat, acc: string, buf: string)
    requires j <= |lines|
    requires |buf| < capacity
    requires forall k :: j <= k < |lines| ==> |lines[k]| < capacity
    ensures ScanBody(lines, j, stopMark, capacity, acc, buf).stop == FirstMarkedFrom(lines, j, stopMark)
    ensures ScanBody(lines, j, stopMark, capacity, acc, buf).body
         == acc + buf + ConcatTrimmed(lines[j..FirstMarkedFrom(lines, j, stopMark)])
    decreases |lines| - j
  {
    if j == |lines| || StartsWith(lines[j], stopMark) {
      assert lines[j..j] == [];
    } else {
      var line := TrimEnd(lines[j]);
      var s := FirstMarkedFrom(lines, j, stopMark);
      assert lines[j..s][1..] == lines[j + 1..s];
      assert ConcatTrimmed(lines[j..s]) == line + ConcatTrimmed(lines[j + 1..s]);
      if |line| + |buf| + 1 > capacity {
        ScanBodyIsConcatenation(lines, j + 1, stopMark, capacity, acc + buf, line);
      } else {
        ScanBodyIsConcatenation(lines, j + 1, stopMark, capacity, acc, buf + line);
      }
    }
  }

  /** The body of the record whose header is line `c`: everything up to the
      first line starting with `stopMark`, read through the chunked buffer of
      `capacity` characters. */
  function ReadBody(lines: seq<string>, c: nat, stopMark: char, capacity: nat): (b: BodyScan)
    requires c < |lines|
    requires forall k :: 0 <= k < |lines| ==> |lines[k]| < capacity
    ensures b.stop == FirstMarkedFrom(lines, c + 1, stopMark)
    ensures b.body == ConcatTrimmed(lines[c + 1..b.stop])
  {
    assert |lines[c]| < capacity;
    ScanBodyIsConcatenation(lines, c + 1, stopMark, capacity, "", "");
    ScanBody(lines, c + 1, stopMark, capacity, "", "")
  }

  /** `line[strlen(line) - 1] = '\0'; comment = line + 1;` on a header line. */
  function HeaderComment(header: string): (c: string)
    requires |header| > 0
    ensures |header| >= 2 ==> header == [header[0]] + c + [header[|header| - 1]]
    ensures |header| < 2 ==> c == ""
  {
    if |header| >= 2 then header[1..|header| - 1] else ""
  }

  /** `line[strlen(line) - 1] = '\0'`: the line without its last character,
      which is the newline on every line but possibly the last. */
  function DropLast(line: string): string
    requires |line| > 0
  {
    line[..|line| - 1]
  }

  /** The reader with its read position moved to line `k`. */
  function MoveTo(r: Reader, k: nat): (m: Reader)
    requires Valid(r) && r.handle.OpenFile? && k <= |r.handle.lines|
    ensures Valid(m) && m.handle.OpenFile?
    ensures m == r.(handle := OpenFile(r.handle.lines, k))
  {
    r.(handle := OpenFile(r.handle.lines, k))
  }

  /** `FastAReader::Read(seq, comment)`. */
  function ReadFastA(r: Reader): (out: ReadOutcome<FastASequence>)
    requires Valid(r) && r.format == FastA && r.handle.OpenFile?
    ensures out.EndOfFile? <==> r.handle.cursor == |r.handle.lines|
    ensures out.BadHeader? <==>
      r.handle.cursor < |r.handle.lines| && !StartsWith(r.handle.lines[r.handle.cursor], '>')
    ensures out.Parsed? ==>
      && Valid(out.next)
      && out.next.handle.OpenFile?
      && out.next == r.(handle := OpenFile(r.handle.lines, out.next.handle.cursor))
    ensures out.Parsed? ==>
      var lines := r.handle.lines;
      var c := r.handle.cursor;
      var next := FirstMarkedFrom(lines, c + 1, '>');
      && out.next.handle.cursor == next
      && out.record.comment == HeaderComment(lines[c])
      && out.record.nucleotides == Upper(ConcatTrimmed(lines[c + 1..next]))
  {
    var lines := r.handle.lines;
    var c := r.handle.cursor;
    if c == |lines| then EndOfFile
    else if !StartsWith(lines[c], '>') then BadHeader
    else
      var scan := ReadBody(lines, c, '>', r.maxLine);
      Parsed(FastASequence(Upper(scan.body), HeaderComment(lines[c])), MoveTo(r, scan.stop))
  }

  /** The quality string read after the '+' line at `plus`, and the line after it. */
  datatype QualityRead = QualityRead(quality: string, after: nat)

  /** The quality part of `FastQReader::Read`: no '+' line gives nothing; the
      line after the '+' line otherwise, or the '+' line itself when `fgets`
      finds no further line. */
  function QualityAt(lines: seq<string>, plus: nat): (q: QualityRead)
    requires plus <= |lines|
    requires forall k :: 0 <= k < |lines| ==> |lines[k]| > 0
    ensures plus == |lines| ==> q == QualityRead("", |lines|)
    ensures plus < |lines| ==>
      var raw := if plus + 1 < |lines| then lines[plus + 1] else lines[plus];
      && |q.quality| < |raw| && q.quality == raw[..|q.quality|]
      && (forall i :: |q.quality| <= i < |raw| - 1 ==> IsSpace(raw[i]))
      && (|q.quality| == 0 || !IsSpace(q.quality[|q.quality| - 1]))
      && q.after == (if plus + 1 < |lines| then plus + 2 else |lines|)
  {
    if plus == |lines| then QualityRead("", |lines|)
    else if plus + 1 < |lines| then QualityRead(TrimEnd(DropLast(lines[plus + 1])), plus + 2)
    else QualityRead(TrimEnd(DropLast(lines[plus])), |lines|)
  }

  /** `FastQReader::Read(seq, comment, quality)`. The sequence lines run up to
      the first line starting with '+' (a line starting with '@' does not end
      them); the line after it is the quality line, with its last character
      dropped and trailing white space trimmed. When the '+' line is the last
      line, `fgets` fails and leaves the '+' line in the buffer, so that line
      is used as the quality line. */
  function ReadFastQ(r: Reader): (out: ReadOutcome<FastQSequence>)
    requires Valid(r) && r.format == FastQ && r.handle.OpenFile?
    ensures out.EndOfFile? <==> r.handle.cursor == |r.handle.lines|
    ensures out.BadHeader? <==>
      r.handle.cursor < |r.handle.lines| && !StartsWith(r.handle.lines[r.handle.cursor], '@')
    ensures out.Parsed? ==>
      && Valid(out.next)
      && out.next.handle.OpenFile?
      && out.next == r.(handle := OpenFile(r.handle.lines, out.next.handle.cursor))
    ensures out.Parsed? ==>
      var lines := r.handle.lines;
      var c := r.handle.cursor;
      && out.record.comment == HeaderComment(lines[c])
      && out.record.nucleotides == Upper(ConcatTrimmed(lines[c + 1..FirstMarkedFrom(lines, c + 1, '+')]))
    ensures out.Parsed? ==>
      QualityRead(out.record.quality, out.next.handle.cursor)
      == QualityAt(r.handle.lines, FirstMarkedFrom(r.handle.lines, r.handle.cursor + 1, '+'))
  {
    var lines := r.handle.lines;
    var c := r.handle.cursor;
    if c == |lines| then EndOfFile
    else if !StartsWith(lines[c], '@') then BadHeader
    else
      var scan := ReadBody(lines, c, '+', r.maxLine);
      var q := QualityAt(lines, scan.stop);
      Parsed(FastQSequence(Upper(scan.body), HeaderComment(lines[c]), q.quality), MoveTo(r, q.after))
  }

  /** `FastQReader::Read(seq, comment)` and `Read(FastASequence&)`: the same
      record without its quality string. */
  function ReadFastQAsFastA(r: Reader): (out: ReadOutcome<FastASequence>)
    requires Valid(r) && r.format == FastQ && r.handle.OpenFile?
    ensures out.EndOfFile? <==> r.handle.cursor == |r.handle.lines|
    ensures out.BadHeader? <==>
      r.handle.cursor < |r.handle.lines| && !StartsWith(r.handle.lines[r.handle.cursor], '@')
    ensures out.Parsed? ==>
      var lines := r.handle.lines;
      var c := r.handle.cursor;
      && out.record.comment == HeaderComment(lines[c])
      && out.record.nucleotides == Upper(ConcatTrimmed(lines[c + 1..FirstMarkedFrom(lines, c + 1, '+')]))
    ensures out.Parsed? ==>
      && ReadFastQ(r).Parsed?
      && out.record == FastASequence(ReadFastQ(r).record.nucleotides, ReadFastQ(r).record.comment)
      && out.next == ReadFastQ(r).next
  {
    match ReadFastQ(r)
    case EndOfFile => EndOfFile
    case BadHeader => BadHeader
    case Parsed(q, next) => Parsed(FastASequence(q.nucleotides, q.comment), next)
  }

  /** A sequence line as a writer emits it: no newline inside, not ending in
      white space, and not starting with `mark`. */
  predicate PlainLine(s: string, mark: char) {
    && (forall i :: 0 <= i < |s| ==> s[i] != '\n')
    && (|s| == 0 || !IsSpace(s[|s| - 1]))
    && !StartsWith(s, mark)
  }

  /** Each string followed by a newline, one line each. */
  function Terminated(chunks: seq<string>): (lines: seq<string>)
    ensures |lines| == |chunks|
    ensures forall k :: 0 <= k < |chunks| ==> lines[k] == chunks[k] + "\n"
  {
    seq(|chunks|, k requires 0 <= k < |chunks| => chunks[k] + "\n")
  }

  function Concat(chunks: seq<string>): string {
    if |chunks| == 0 then "" else chunks[0] + Concat(chunks[1..])
  }

  /** A FASTA record as a writer lays it out: the header line, then the
      sequence split over any number of lines. */
  function FastALines(comment: string, chunks: seq<string>): seq<string> {
    [">" + comment + "\n"] + Terminated(chunks)
  }

  /** A FASTQ record as a writer lays it out: header, sequence lines, a bare
      '+' separator and the quality line. */
  function FastQLines(comment: string, chunks: seq<string>, quality: string): seq<string> {
    ["@" + comment + "\n"] + Terminated(chunks) + ["+\n", quality + "\n"]
  }

  lemma TrimNewline(s: string)
    requires |s| == 0 || !IsSpace(s[|s| - 1])
    ensures TrimEnd(s + "\n") == s
    ensures TrimEnd(DropLast(s + "\n")) == s
  {
    var t := s + "\n";
    assert t[..|t| - 1] == s;
    assert TrimEnd(s) == s;
    assert TrimEnd(t) == TrimEnd(s);
  }

  /** Trimming the newline-terminated plain lines and concatenating them gives
      back the concatenation of the original strings. */
  lemma {:induction false} ConcatTrimmedTerminated(chunks: seq<string>, mark: char)
    requires forall k :: 0 <= k < |chunks| ==> PlainLine(chunks[k], mark)
    ensures ConcatTrimmed(Terminated(chunks)) == Concat(chunks)
    decreases |chunks|
  {
    if |chunks| > 0 {
      TrimNewline(chunks[0]);
      assert Terminated(chunks)[1..] == Terminated(chunks[1..]);
      ConcatTrimmedTerminated(chunks[1..], mark);
    }
  }

  /** Reading back a FASTA record written by a writer: the comment comes back
      as written, the sequence upper-cased and joined, and the read stops at
      the next record. */
  lemma {:induction false} FastARoundTrip(r: Reader, comment: string, chunks: seq<string>, rest: seq<string>)
    requires Valid(r) && r.format == FastA
    requires r.handle == OpenFile(FastALines(comment, chunks) + rest, 0)
    requires forall k :: 0 <= k < |chunks| ==> PlainLine(chunks[k], '>')
    requires |rest| == 0 || StartsWith(rest[0], '>')
    ensures ReadFastA(r).Parsed?
    ensures ReadFastA(r).record == FastASequence(Upper(Concat(chunks)), comment)
    ensures ReadFastA(r).next.handle.cursor == 1 + |chunks|
  {
    var lines := r.handle.lines;
    var body := Terminated(chunks);
    var end := 1 + |chunks|;
    assert lines[0] == ">" + comment + "\n";
    assert HeaderComment(lines[0]) == comment;
    forall k | 1 <= k < end
      ensures !StartsWith(lines[k], '>')
    {
      assert lines[k] == chunks[k - 1] + "\n";
    }
    assert end == |lines| || lines[end] == rest[0];
    var out := ReadFastA(r);
    var next := out.next.handle.cursor;
    assert next == end;
    assert lines[1..end] == body;
    ConcatTrimmedTerminated(chunks, '>');
  }

  /** Reading back a FASTQ record written by a writer gives the comment, the
      upper-cased sequence and the quality string, and leaves the cursor just
      after the quality line. */
  lemma {:induction false} FastQRoundTrip(r: Reader, comment: string, chunks: seq<string>, quality: string, rest: seq<string>)
    requires Valid(r) && r.format == FastQ
    requires r.handle == OpenFile(FastQLines(comment, chunks, quality) + rest, 0)
    requires forall k :: 0 <= k < |chunks| ==> PlainLine(chunks[k], '+')
    requires forall i :: 0 <= i < |quality| ==> quality[i] != '\n'
    requires |quality| == 0 || !IsSpace(quality[|quality| - 1])
    ensures ReadFastQ(r).Parsed?
    ensures ReadFastQ(r).record == FastQSequence(Upper(Concat(chunks)), comment, quality)
    ensures ReadFastQ(r).next.handle.cursor == 3 + |chunks|
  {
    var lines := r.handle.lines;
    var body := Terminated(chunks);
    var plus := 1 + |chunks|;
    assert lines[0] == "@" + comment + "\n";
    assert HeaderComment(lines[0]) == comment;
    forall k | 1 <= k < plus
      ensures !StartsWith(lines[k], '+')
    {
      assert lines[k] == chunks[k - 1] + "\n";
    }
    assert lines[plus] == "+\n";
    assert lines[plus + 1] == quality + "\n";
    assert FirstMarkedFrom(lines, 1, '+') == plus;
    assert lines[1..plus] == body;
    ConcatTrimmedTerminated(chunks, '+');
    TrimNewline(quality);
  }

  /** Dropping lines `j` to `s`, none of which starts with `m`, does not change
      the number of marked lines in the rest of the file. */
  lemma {:induction false} UnmarkedSpanCount(lines: seq<string>, j: nat, s: nat, m: char)
    requires j <= s <= |lines|
    requires forall k :: j <= k < s ==> !StartsWith(lines[k], m)
    ensures CountMarked(lines[j..], m) == CountMarked(lines[s..], m)
    decreases s - j
  {
    if j < s {
      assert lines[j..][1..] == lines[j + 1..];
      UnmarkedSpanCount(lines, j + 1, s, m);
    }
  }

  /** The indices, in ascending order, of the lines at or after `j` that
      start with `m`. */
  function MarkedIndices(lines: seq<string>, m: char, j: nat): seq<nat>
    requires j <= |lines|
    decreases |lines| - j
  {
    if j == |lines| then []
    else (if StartsWith(lines[j], m) then [j] else []) + MarkedIndices(lines, m, j + 1)
  }

  /** Lines without the marker between `j` and `s` add no index. */
  lemma {:induction false} MarkedIndicesSkip(lines: seq<string>, m: char, j: nat, s: nat)
    requires j <= s <= |lines|
    requires forall k :: j <= k < s ==> !StartsWith(lines[k], m)
    ensures MarkedIndices(lines, m, j) == MarkedIndices(lines, m, s)
    decreases s - j
  {
    if j < s {
      MarkedIndicesSkip(lines, m, j + 1, s);
    }
  }

  /** The FASTA record whose header is line `h`: the comment of the header
      and the upper-cased trimmed lines up to the next header. */
  function FastARecordAt(lines: seq<string>, h: nat): FastASequence
    requires h < |lines| && StartsWith(lines[h], '>')
  {
    FastASequence(Upper(ConcatTrimmed(lines[h + 1..FirstMarkedFrom(lines, h + 1, '>')])), HeaderComment(lines[h]))
  }

  /** `records` are the records whose headers are the first `|records|` of
      the ascending header indices `heads`. */
  predicate RecordsAt(lines: seq<string>, heads: seq<nat>, records: seq<FastASequence>) {
    && |records| <= |heads|
    && forall i :: 0 <= i < |records| ==>
         heads[i] < |lines| && StartsWith(lines[heads[i]], '>') && records[i] == FastARecordAt(lines, heads[i])
  }

  /** Appending the record of the next header keeps the records in order. */
  lemma RecordsAtExtend(lines: seq<string>, heads: seq<nat>, records: seq<FastASequence>, rec: FastASequence)
    requires RecordsAt(lines, heads, records)
    requires |records| < |heads| && heads[|records|] < |lines| && StartsWith(lines[heads[|records|]], '>')
    requires rec == FastARecordAt(lines, heads[|records|])
    ensures RecordsAt(lines, heads, records + [rec])
  {
    var ext := records + [rec];
    forall i | 0 <= i < |ext|
      ensures heads[i] < |lines| && StartsWith(lines[heads[i]], '>') && ext[i] == FastARecordAt(lines, heads[i])
    {
      if i < |records| {
        assert ext[i] == records[i];
      }
    }
  }

  /** Reading the record at header `c`, the `i`-th header, leaves the headers
      after it to be read, starting with the next one. */
  lemma HeaderStep(lines: seq<string>, heads: seq<nat>, i: nat, c: nat)
    requires c < |lines| && StartsWith(lines[c], '>')
    requires i <= |heads| && heads == heads[..i] + MarkedIndices(lines, '>', c)
    ensures i < |heads| && heads[i] == c
    ensures heads == heads[..i + 1] + MarkedIndices(lines, '>', FirstMarkedFrom(lines, c + 1, '>'))
  {
    var next := FirstMarkedFrom(lines, c + 1, '>');
    MarkedIndicesSkip(lines, '>', c + 1, next);
    assert MarkedIndices(lines, '>', c) == [c] + MarkedIndices(lines, '>', next);
    assert heads[..i + 1] == heads[..i] + [c];
  }

  /** From a cursor on a header (or at the end), with `k` headers left, one
      `Read` fails exactly when none is left and never meets a bad header; a
      record moves the cursor to the next header with one header fewer left. */
  lemma ReadFastAConsumesOneHeader(r: Reader, k: nat)
    requires Valid(r) && r.format == FastA && r.handle.OpenFile?
    requires r.handle.cursor == |r.handle.lines| || StartsWith(r.handle.lines[r.handle.cursor], '>')
    requires CountMarked(r.handle.lines[r.handle.cursor..], '>') == k
    ensures !ReadFastA(r).BadHeader?
    ensures ReadFastA(r).EndOfFile? <==> k == 0
    ensures ReadFastA(r).Parsed? ==>
      var next := ReadFastA(r).next.handle.cursor;
      && (next == |r.handle.lines| || StartsWith(r.handle.lines[next], '>'))
      && CountMarked(r.handle.lines[next..], '>') == k - 1
      && next == FirstMarkedFrom(r.handle.lines, r.handle.cursor + 1, '>')
      && ReadFastA(r).record == FastARecordAt(r.handle.lines, r.handle.cursor)
  {
    var lines := r.handle.lines;
    var c := r.handle.cursor;
    if c < |lines| {
      assert lines[c..][1..] == lines[c + 1..];
      UnmarkedSpanCount(lines, c + 1, FirstMarkedFrom(lines, c + 1, '>'), '>');
    }
  }

  /** The state of a batch read from the start of a file: the cursor is on a
      header (or at the end) with `left` headers to go, `records` hold the
      records of the headers before it, and `heads` lists all headers. */
  predicate AtHeader(lines: seq<string>, cursor: nat, heads: seq<nat>, records: seq<FastASequence>, left: nat) {
    && cursor <= |lines|
    && (cursor == |lines| || StartsWith(lines[cursor], '>'))
    && CountMarked(lines[cursor..], '>') == left
    && |records| <= |heads| && heads == heads[..|records|] + MarkedIndices(lines, '>', cursor)
    && RecordsAt(lines, heads, records)
  }

  /** One `Read` of a batch read from the start of a file succeeds and appends
      the record of the next header. */
  lemma FromStartStep(r: Reader, heads: seq<nat>, records: seq<FastASequence>, left: nat)
    requires Valid(r) && r.format == FastA && r.handle.OpenFile?
    requires AtHeader(r.handle.lines, r.handle.cursor, heads, records, left) && left > 0
    ensures ReadFastA(r).Parsed?
    ensures AtHeader(r.handle.lines, ReadFastA(r).next.handle.cursor, heads, records + [ReadFastA(r).record], left - 1)
  {
    var lines := r.handle.lines;
    var c := r.handle.cursor;
    ReadFastAConsumesOneHeader(r, left);
    HeaderStep(lines, heads, |records|, c);
    RecordsAtExtend(lines, heads, records, ReadFastA(r).record);
  }

  /** `FastAReader::Read(vector&)`: size the vector with `NumReads()` and call
      `Read` that many times, ignoring its result; a call that hits the end of
      the file leaves the previous record's strings in place. */
  method ReadAllFastA(r: Reader) returns (out: Batch<FastASequence>)
    requires Valid(r) && r.format == FastA
    ensures out.Loaded? ==>
      && Valid(out.next)
      && |out.records| == NumReads(r).value
      && out.next.numReads == NumReads(r).reader.numReads
    ensures r.handle.Closed? ==> out == Loaded([], r)
    ensures (&& r.handle.OpenFile? && r.handle.cursor == 0
             && (|r.handle.lines| == 0 || StartsWith(r.handle.lines[0], '>'))) ==>
      && out.Loaded?
      && out.next.handle == OpenFile(r.handle.lines, |r.handle.lines|)
      && |out.records| == |MarkedIndices(r.handle.lines, '>', 0)|
      && RecordsAt(r.handle.lines, MarkedIndices(r.handle.lines, '>', 0), out.records)
    ensures r.handle.OpenFile? && r.handle.cursor == |r.handle.lines| ==>
      && out.Loaded?
      && out.next == NumReads(r).reader
      && forall k :: 0 <= k < |out.records| ==> out.records[k] == FastASequence("", "")
  {
    var counted := NumReads(r);
    var n := counted.value;
    var cur := counted.reader;
    if r.handle.Closed? {
      return Loaded([], cur);
    }
    var lines := r.handle.lines;
    ghost var fromStart := r.handle.cursor == 0 && (|lines| == 0 || StartsWith(lines[0], '>'));
    CountMarkedIsMarkedLines(lines, '>');
    assert lines[0..] == lines;
    ghost var heads := MarkedIndices(lines, '>', 0);
    ghost var atEnd := r.handle.cursor == |lines|;
    assert fromStart ==> AtHeader(lines, 0, heads, [], n);
    var nucleotides, comment := "", "";
    var records: seq<FastASequence> := [];
    var i := 0;
    while i < n
      invariant 0 <= i <= n && |records| == i
      invariant Valid(cur) && cur.format == FastA && cur.handle.OpenFile?
      invariant cur.handle.lines == lines && cur.maxLine == r.maxLine && cur.numReads == n
      invariant fromStart ==> AtHeader(lines, cur.handle.cursor, heads, records, n - i)
      invariant atEnd ==> cur == counted.reader && nucleotides == "" && comment == ""
      invariant atEnd ==> forall k :: 0 <= k < i ==> records[k] == FastASequence("", "")
      decreases n - i
    {
      if fromStart {
        FromStartStep(cur, heads, records, n - i);
      }
      match ReadFastA(cur) {
      case EndOfFile =>
      case BadHeader =>
        return Aborted;
      case Parsed(rec, next) =>
        nucleotides, comment := rec.nucleotides, rec.comment;
        cur := next;
      }
      records := records + [FastASequence(nucleotides, comment)];
      i := i + 1;
    }
    assert fromStart ==> cur.handle.cursor == |lines|;
    if fromStart {
      assert heads == heads[..i] + [];
    }
    return Loaded(records, cur);
  }

  /** `FastQReader::Read(vector<FastQSequence>&)`. `NumReads` counts every line
      starting with '@', quality lines included, so the loop may run past the
      last record; those calls hit the end of the file and repeat the previous
      record. */
  method ReadAllFastQ(r: Reader) returns (out: Batch<FastQSequence>)
    requires Valid(r) && r.format == FastQ
    ensures out.Loaded? ==>
      && Valid(out.next)
      && |out.records| == NumReads(r).value
      && out.next.numReads == NumReads(r).reader.numReads
    ensures r.handle.Closed? ==> out == Loaded([], r)
  {
    var counted := NumReads(r);
    var n := counted.value;
    var cur := counted.reader;
    if r.handle.Closed? {
      return Loaded([], cur);
    }
    var nucleotides, comment, quality := "", "", "";
    var records: seq<FastQSequence> := [];
    var i := 0;
    while i < n
      invariant 0 <= i <= n && |records| == i
      invariant Valid(cur) && cur.format == FastQ && cur.handle.OpenFile?
      invariant cur.numReads == n
      decreases n - i
    {
      match ReadFastQ(cur) {
      case EndOfFile =>
      case BadHeader =>
        return Aborted;
      case Parsed(rec, next) =>
        nucleotides, comment, quality := rec.nucleotides, rec.comment, rec.quality;
        cur := next;
      }
      records := records + [FastQSequence(nucleotides, comment, quality)];
      i := i + 1;
    }
    return Loaded(records, cur);
  }

  /** `FastQReader::Read(vector<FastASequence>&)`: the same loop, keeping only
      sequence and comment. */
  method ReadAllFastQAsFastA(r: Reader) returns (out: Batch<FastASequence>)
    requires Valid(r) && r.format == FastQ
    ensures out.Loaded? ==> Valid(out.next) && |out.records| == NumReads(r).value
  {
    var full := ReadAllFastQ(r);
    if full.Aborted? {
      return Aborted;
    }
    var records := seq(|full.records|, i requires 0 <= i < |full.records| =>
      FastASequence(full.records[i].nucleotides, full.records[i].comment));
    return Loaded(records, full.next);
  }
}

=== FILE: sequences.dfy ===
/** Facts about sequences shared by the command-line parsers. */
module Sequences {

  /** A slice that is a pair followed by `tail` starts with that pair, and
      `tail` is what follows it. */
  lemma SliceAfterPair<T>(s: seq<T>, i: nat, n: nat, head: seq<T>, tail: seq<T>)
    requires i + n <= |s| && |head| == 2 && s[i..i + n] == head + tail
    ensures s[i] == head[0] && s[i + 1] == head[1] && s[i + 2..i + n] == tail
  {
    var t := s[i..i + n];
    assert t[0] == head[0] && t[1] == head[1];
    assert t[2..] == tail;
    assert s[i + 2..i + n] == t[2..];
  }
}

=== FILE: text.dfy ===
/** Character-level helpers with the meaning the C library gives them in the
    "C" locale: `isspace`, `toupper`, `tolower` and `strcasecmp`. */
module Text {

  /** `isspace` in the "C" locale: space, tab, newline, vertical tab, form feed, carriage return. */
  predicate IsSpace(ch: char) {
    ch == ' ' || ch == '\t' || ch == '\n' || ch == '\U{0B}' || ch == '\U{0C}' || ch == '\r'
  }

  predicate IsLower(ch: char) {
    'a' <= ch <= 'z'
  }

  predicate IsUpper(ch: char) {
    'A' <= ch <= 'Z'
  }

  /** `toupper`: ASCII lower-case letters map to upper case, everything else is unchanged. */
  function ToUpper(ch: char): char {
    if IsLower(ch) then (ch as int - 32) as char else ch
  }

  /** `tolower`: ASCII upper-case letters map to lower case, everything else is unchanged. */
  function ToLower(ch: char): char {
    if IsUpper(ch) then (ch as int + 32) as char else ch
  }

  /** Every character of a string passed through `toupper`: each ASCII
      lower-case letter becomes the upper-case letter it is the lower case of,
      every other character is kept, and no lower-case letter remains. */
  function Upper(s: string): (r: string)
    ensures |r| == |s|
    ensures forall i :: 0 <= i < |s| && IsLower(s[i]) ==> IsUpper(r[i]) && ToLower(r[i]) == s[i]
    ensures forall i :: 0 <= i < |s| && !IsLower(s[i]) ==> r[i] == s[i]
    ensures forall i :: 0 <= i < |r| ==> !IsLower(r[i])
  {
    seq(|s|, i requires 0 <= i < |s| => ToUpper(s[i]))
  }

  /** The loop `while (len > 0 && isspace(line[len - 1])) --len;`: the longest
      prefix of `s` that does not end in white space. */
  function TrimEnd(s: string): (r: string)
    ensures |r| <= |s| && r == s[..|r|]
    ensures forall i :: |r| <= i < |s| ==> IsSpace(s[i])
    ensures |r| == 0 || !IsSpace(r[|r| - 1])
    decreases |s|
  {
    if |s| > 0 && IsSpace(s[|s| - 1]) then TrimEnd(s[..|s| - 1]) else s
  }

  /** `strcasecmp(a, b) == 0` for strings without NUL characters. */
  predicate EqualsIgnoringCase(a: string, b: string) {
    |a| == |b| && forall i :: 0 <= i < |a| ==> ToLower(a[i]) == ToLower(b[i])
  }

  /** `line[0] == c` on a line read by `fgets`. */
  predicate StartsWith(line: string, c: char) {
    |line| > 0 && line[0] == c
  }
}

=== FILE: wrappers.dfy ===
/** A minimal optional-value type, used for the results of abstract parsers and
    for file handles that may fail to open. */
module Wrappers {

  datatype Option<+T> = None | Some(value: T)
}
